=== FILE: README.md ===
# Todo list: a Dafny model of the server routes and the client state logic

This project models the core of a multi-user todo-list application. The
application has an Express server over a MongoDB `Todo` collection and a
React client. The model covers:

- **Identity.** Every route first resolves the current user. The name comes
  from the `user` query parameter, then the `x-current-user` header, then
  (only in the inline server `index.js`) the default `john_doe`. The user is
  then looked up by exact username. Both copies of the routes are modelled
  through one parameter, `Server = InlineApp | MountedRouter`
  (`routes/todoRouter.js` has no default name).
- **The Todo schema.** Defaults, the `required` title, the priority
  enumeration, timestamps and the notes subdocument.
- **The routes.** Export (JSON or CSV), list (filter, sort, skip/limit paging,
  page count), read, create, update, delete and add-note. Each route is a pure
  function from the store before the request to a response and the store
  after it. Every lookup is scoped by `{ _id, user }`. Each route answers
  errors with the status its own `catch` block uses.
- **The client.** The filter toggles in `TodoApp` and `TodoSidebar`, the
  comma-list parsing and single-field updates of `TodoForm`, the
  Previous/Next buttons of `Pagination`, and the `TodoApp` steps that choose
  the current user, load a list page and reset the form after an add.

The store is a sequence of documents in natural order, with explicit ids and
owner ids. The model sorts with a stable insertion sort on a lexicographic
integer key. The list contracts admit any arrangement sorted by the key,
since the database promises no order for ties; the export contract names
the model's own arrangement (`TodoExport.Newest`) and states the ordering
facts about it. The clock, new ids and the
rendering of dates as text are parameters.

An unknown user is answered from the route's `catch` block, so it gets 400
on create, update and add-note, and 500 on export, list, read and delete
(`Http.CatchStatus`).

## Model

| member | source | states |
|---|---|---|
| Identity.RequestedUsername | todo-list-express-server/index.js:105 | The query name wins if truthy, else the header name, else `john_doe` in the inline server. The router gets no name exactly when neither is truthy. |
| Identity.FindUser | todo-list-express-server/index.js:106 | `findOne({ username })` finds a stored user with exactly that name, or finds nothing exactly when no user has it. |
| Identity.FindUserUnique | todo-list-express-server/index.js:37-41 | With unique usernames, the lookup returns the one user with that name. |
| Identity.CurrentUser | todo-list-express-server/index.js:104-111 | Succeeds exactly when some user has the requested name, and returns that user. Otherwise it fails with the name that was not found. |
| Identity.ServersAgreeWhenNamed | todo-list-express-server/routes/todoRouter.js:12-24 | The inline server and the router resolve identically whenever the request names someone. When it names nobody, the router fails and the inline server acts for `john_doe`. |
| Identity.QueryOverridesHeader | todo-list-express-server/index.js:105 | A query parameter naming an existing user decides the identity, whatever the header says. |
| Http.CatchStatus | todo-list-express-server/index.js:147-327 | The `catch` of the create, update and add-note routes answers 400, and that of every other route 500. |
| Http.IdentityFailure | todo-list-express-server/index.js:107-109 | A failed user lookup becomes an error reply with the route's `catch` status, reporting the user name that was not found. |
| TodoModel.PriorityName | todo-list-express-server/models/TodoModel.js:15-19 | Every stored priority is one of `low`, `medium`, `high`. |
| TodoModel.ParsePriority | todo-list-express-server/models/TodoModel.js:17 | The enum validator accepts a string exactly when it is one of the three names, and maps it back to its name. |
| TodoModel.PriorityNameParses | todo-list-express-server/models/TodoModel.js:15-19 | Names and priorities correspond one to one. |
| TodoModel.Instantiate | todo-list-express-server/models/TodoModel.js:5-45 | A draft is accepted exactly when the title is present and non-empty and the priority is absent or in the enumeration. The result keeps the id, owner and title, and both timestamps are the creation time. A missing title is reported as `TitleRequired`. |
| TodoModel.DefaultsApplied | todo-list-express-server/models/TodoModel.js:11-41 | A title-only draft gets description `''`, priority `medium`, `completed = false` and empty tags, assigned users and notes. |
| TodoModel.SuppliedFieldsKept | todo-list-express-server/models/TodoModel.js:11-41 | A supplied field is stored as given, and the default is only a fallback. |
| TodoModel.MakeNote | todo-list-express-server/models/TodoModel.js:35-41 | A note keeps its content, and its `createdAt` defaults to the current time. |
| Text.Trim | todo-list-express-server/index.js:227 | `trim()` returns a trimmed string no longer than its input. It is empty exactly when the input is all whitespace. |
| Text.TrimInfix | todo-list-express-server/index.js:232 | The trimmed string is the infix of the input left after removing leading and trailing whitespace. |
| Text.TrimTrimmed | todo-list-express-server/index.js:232 | Trimming an already trimmed string changes nothing. |
| Text.Split | todo-list-express-server/index.js:172 | `split(',')` yields at least one piece, no piece holds the separator, and joining the pieces with it restores the input. |
| Text.SplitJoin | todo-list-express-server/index.js:172 | Splitting the join of separator-free pieces gives back exactly those pieces. |
| Text.SplitAppend | todo-list-express-server/index.js:172 | Splitting `a + sep + b` gives the pieces of `a` followed by the pieces of `b`. |
| Text.Join | todo-list-express-server/index.js:138 | `join` of no pieces is `""`, of one piece is that piece, and otherwise starts with the first piece. `Text.SplitJoin` is its inverse on separator-free pieces. |
| TodoStore.FindScoped | todo-list-express-server/index.js:207-210 | Finds the first document with that id and owner, or nothing exactly when none exists. |
| TodoStore.FindScopedOwner | todo-list-express-server/index.js:207-210 | With unique ids, a document is found under its own owner and under nobody else. |
| TodoStore.OthersOfReplace | todo-list-express-server/index.js:263-267 | Replacing one of a user's documents leaves every other user's documents unchanged, in order. |
| TodoStore.OthersOfRemove | todo-list-express-server/index.js:282-285 | Removing one of a user's documents leaves every other user's documents unchanged, in order. |
| TodoStore.OthersOfInsert | todo-list-express-server/index.js:241 | Saving a new todo owned by the caller leaves every other user's documents unchanged, in order. |
| TodoQuery.BuildQuery | todo-list-express-server/index.js:166-174 | The query always holds the owner. A truthy `priority` is filtered on with exactly that value. `completed` filters on `value === 'true'` whenever it is present. Truthy `tags` become exactly the pieces of `tags.split(',')`, whose join is the original text. |
| TodoQuery.FilterRules | todo-list-express-server/index.js:166-174 | For every request, a todo is selected exactly when it is the caller's, has the requested priority when a truthy `priority` is given, has `completed === (value === 'true')` when `completed` is given, and carries one of the comma-separated tags when a truthy `tags` is given. |
| TodoQuery.Matches | todo-list-express-server/index.js:166-174 | Only the owner's documents match. A tags filter never matches an untagged todo. With no filter, a document matches exactly when it is the owner's. |
| TodoQuery.Select | todo-list-express-server/index.js:182 | `find(query)` returns each matching document as often as it is stored, and nothing else. |
| TodoQuery.SortKey | todo-list-express-server/index.js:176-178 | A field outside the todo's sortable fields gives the empty key, so all documents tie. `createdAt`, `updatedAt`, `_id` and `completed` give a one-element key, and `title` a key as long as the title. |
| TodoQuery.SortKeyOrder | todo-list-express-server/index.js:176-178 | Under `sort[field]`, `createdAt`, `updatedAt` and `_id` compare by value, `completed` puts `false` before `true`, and a field the documents lack ties every pair. |
| TodoQuery.Descending | todo-list-express-server/index.js:178 | The order is descending exactly when `sortOrder` is absent (the default `desc`) or is exactly `desc`. |
| TodoQuery.AscendingUnlessDesc | todo-list-express-server/index.js:178 | With a `sortOrder` present and other than `desc`, a sorted arrangement is non-decreasing by the requested key. |
| TodoQuery.PageCount | todo-list-express-server/index.js:194 | `Math.ceil(total / limit)` is the least page count whose pages hold `total` items. It is 0 exactly when `total` is 0. |
| TodoQuery.PageOf | todo-list-express-server/index.js:180-185 | `skip((page - 1) * limit).limit(limit)` is the slice starting at `(page - 1) * limit`, at most `limit` long, and holds only elements of its input. It is empty once the skip passes the end. |
| TodoQuery.Ordered | todo-list-express-server/index.js:182-183 | The sorted result is a rearrangement of all matches, ordered by the requested key and direction. |
| TodoQuery.List | todo-list-express-server/index.js:153-202 | Unknown user gives the route's catch status. Otherwise it answers 200. Every listed todo is the caller's own and matches every filter. The list is page `page` of some arrangement of all matches sorted by the requested key and order. `pagination` holds the page, the page count, the page size and the number of matches. |
| TodoQuery.ListDefaults | todo-list-express-server/index.js:156-164 | With no `limit`, `sortBy` or `sortOrder`, a page holds at most 10 todos, the page count is computed at 10 per page, and the page comes from the matches arranged newest `createdAt` first. |
| TodoQuery.ListAscending | todo-list-express-server/index.js:178 | With a `sortOrder` present and other than `desc`, the list is the requested page of an arrangement of all matches that is non-decreasing by the requested key. |
| TodoQuery.TagsFilterIsAnyOf | todo-list-express-server/index.js:171-174 | `tags=work,urgent` admits exactly the caller's todos tagged `work` or `urgent`. |
| TodoQuery.CompletedCoercion | todo-list-express-server/index.js:170 | Any `completed` value other than `'true'` selects incomplete todos. |
| TodoQuery.PagesCoverAll | todo-list-express-server/index.js:180-194 | Reading pages 1 to the page count returns every match once, in order. |
| TodoQuery.PagesPrefix | todo-list-express-server/index.js:180-185 | The first `n` pages together are the first `n * limit` matches. |
| TodoQuery.PageSizes | todo-list-express-server/index.js:180-194 | Pages before the last are full, the last is non-empty and holds the remainder, and later pages are empty. |
| TodoQuery.TwentyFiveAtTen | todo-list-express-server/index.js:194 | 25 matches at 10 per page make 3 pages, the last holding 5. |
| Sorting.SortBy | todo-list-express-server/index.js:176-183 | The sort returns a permutation of its input that is ordered by the key, ascending or descending. |
| Sorting.Insert | todo-list-express-server/index.js:183 | Inserting into a sorted sequence keeps it sorted and adds exactly that element. |
| Sorting.LexTotal | todo-list-express-server/index.js:178 | Any two sort keys are comparable. |
| Sorting.LexTrans | todo-list-express-server/index.js:178 | The key order is transitive. |
| TodoExport.Newest | todo-list-express-server/index.js:130-132 | The export query returns exactly the caller's todos, each as often as stored, ordered newest first. |
| TodoExport.CsvFields | todo-list-express-server/index.js:138 | A row has one field per header column, in header order: title, description, priority name, `true` or `false`, the tags, the assigned users, and the rendered `createdAt`. No tags give an empty field, and a single assigned user is written as is. |
| TodoExport.Rows | todo-list-express-server/index.js:137-139 | `todos.map(...)` gives one row per todo, in the order of the todos. |
| TodoExport.Export | todo-list-express-server/index.js:125-150 | Unknown user gives 500. Otherwise the reply is the caller's export, `ExportOf`: 200 with all of the caller's todos newest first, as CSV exactly when `format` is `csv`. |
| TodoExport.ExportOf | todo-list-express-server/index.js:125-150 | Once the user is known: 200, with CSV exactly when `format` is `csv` and JSON otherwise. The body is rendered from the caller's todos (`Newest`), which hold each of the caller's documents as often as stored, nothing else, ordered newest `createdAt` first. |
| TodoExport.Csv | todo-list-express-server/index.js:136-143 | The CSV starts with the header and newline. With no todos it is the header alone. |
| TodoExport.CsvLines | todo-list-express-server/index.js:136-143 | Splitting the CSV at newlines gives the header line and then one line per todo, provided no field holds a newline. |
| TodoExport.HeaderHasNoNewline | todo-list-express-server/index.js:136 | The header names the seven columns in order and holds no newline. |
| TodoExport.QuotedRowSplits | todo-list-express-server/index.js:138 | Splitting a row of quote-free fields at `"` gives `""`, then each field, with `,` between fields, then `""`. |
| TodoExport.CsvRowRecoverable | todo-list-express-server/index.js:138 | If no field holds a `"`, the row splits at `"` into 15 pieces: piece 0 and piece 14 are `""`, and every even piece between them is `,`. Title, description, priority, completed and the rendered `createdAt` (the Created At column) are pieces 1, 3, 5, 7 and 13. Tags and assigned users come back by splitting pieces 9 and 11 at `;` when non-empty and `;`-free. |
| TodoExport.CsvJoinExample | todo-list-express-server/index.js:138 | Tags `["a","b"]` and assigned users `["@x"]` export as `a;b` and `@x`. |
| TodoHandlers.Read | todo-list-express-server/index.js:204-220 | Unknown user gives 500. Otherwise it answers 200 exactly when the caller owns a todo with that id, and returns that todo. If not, it answers 404. |
| TodoHandlers.Create | todo-list-express-server/index.js:222-248 | Unknown user gives 400. A title that is missing or trims to empty gives 400 `Title is required`. A present title with an out-of-enum priority gives 400 with the schema's validation error. Otherwise it appends and returns 201 with the trimmed title, the defaults, the owner, the fresh id and both timestamps set to now. No failure changes the store, and other users' todos are never touched. |
| TodoHandlers.CreateDraftFields | todo-list-express-server/index.js:231-239 | The built document carries the trimmed title and the `\|\|` defaults for description, priority, tags and assigned users, with no notes. |
| TodoHandlers.CreateDraftAccepted | todo-list-express-server/index.js:231-247 | For a non-blank title, the new document is accepted exactly when `priority` is falsy (so the default applies) or one of the three enum names. |
| TodoHandlers.ValidatePatch | todo-list-express-server/index.js:255-266 | The update validators accept exactly when a supplied title trims to non-empty and a supplied priority is in the enumeration. The patch holds exactly the supplied fields: the title trimmed, the priority as its enum value, and description, completed, tags and assigned users as given. |
| TodoHandlers.ApplyPatch | todo-list-express-server/index.js:263-267 | `$set` with the patch: a supplied field takes the patch value and an absent one keeps the stored value. The id, owner, notes and creation time are kept, and `updatedAt` becomes now. |
| TodoHandlers.Update | todo-list-express-server/index.js:250-277 | Unknown user gives 400. An invalid body gives 400 before any lookup. A todo the caller does not own gives 404. Otherwise exactly the supplied fields change, `updatedAt` becomes now, and nothing else changes. Other users' todos are never touched. |
| TodoHandlers.Delete | todo-list-express-server/index.js:279-295 | Unknown user gives 500. A todo the caller does not own gives 404. Otherwise it answers 200 with the fixed message and removes exactly that todo. Other users' todos are never touched. |
| TodoHandlers.AddNote | todo-list-express-server/index.js:298-328 | Unknown user gives 400. Blank content gives 400 before the lookup. A missing todo gives 404. Otherwise the trimmed note is appended with time now and `updatedAt` becomes now, with the rest unchanged. |
| TodoHandlers.CreateThenRead | todo-list-express-server/index.js:204-248 | A created todo reads back unchanged by its creator. |
| TodoHandlers.DeleteThenRead | todo-list-express-server/index.js:204-295 | After a successful delete the id no longer reads, and the store is one shorter. |
| TodoHandlers.ForeignTodoUnreachable | todo-list-express-server/routes/todoRouter.js:139-327 | Another user's todo cannot be reached. Read and delete give 404, and update and add-note give 400 or 404, all with the store unchanged. |
| TodoHandlers.CreatePreservesInvariant | todo-list-express-server/index.js:222-248 | Ids stay unique and every title stays non-empty and trimmed. |
| TodoHandlers.UpdatePreservesInvariant | todo-list-express-server/index.js:250-277 | Ids stay unique and every title stays non-empty and trimmed. |
| TodoHandlers.DeletePreservesInvariant | todo-list-express-server/index.js:279-295 | Ids stay unique and every title stays non-empty and trimmed. |
| TodoHandlers.AddNotePreservesInvariant | todo-list-express-server/index.js:316-321 | The invariant holds, and notes are append-only: one more, the earlier ones unchanged. |
| ClientFilters.Toggle | todo-list-react-app/src/components/TodoApp.jsx:103-105 | A present value is removed everywhere (the list shrinks). An absent value is appended at the end. Membership flips for the value only. |
| Prelude.Remove | todo-list-react-app/src/components/TodoApp.jsx:104 | `filter(item => item !== value)` keeps exactly the other elements, never grows the list, and leaves a list without `value` unchanged. |
| ClientFilters.ToggleOthersUnchanged | todo-list-react-app/src/components/TodoSidebar.jsx:8-10 | With the toggled value filtered out, the list before and after is identical, order included. |
| ClientFilters.ToggleTwiceRestores | todo-list-react-app/src/components/TodoApp.jsx:103-105 | Toggling an absent value twice restores the list exactly. |
| ClientFilters.ChangeFilter | todo-list-react-app/src/components/TodoApp.jsx:100-107 | The named list is toggled and the other list is copied unchanged. |
| ClientFilters.ChangeFilterTwice | todo-list-react-app/src/components/TodoApp.jsx:100-107 | Changing a filter twice with an unselected value restores both lists. |
| ClientFilters.PriorityChange | todo-list-react-app/src/components/TodoSidebar.jsx:7-14 | The list passed to `onFilter` is exactly the new state, and that state is the toggled list. |
| ClientFilters.PriorityChangeFlipsOneBox | todo-list-react-app/src/components/TodoSidebar.jsx:27-43 | After a change only the clicked checkbox changes its checked state. |
| ClientForm.ParseItems | todo-list-react-app/src/components/TodoForm.jsx:36 | No parsed entry is empty, untrimmed or holds a comma. |
| ClientForm.ParseEmpty | todo-list-react-app/src/components/TodoForm.jsx:36 | The parsed list is empty exactly when every comma-separated piece is whitespace. |
| ClientForm.ParseBlank | todo-list-react-app/src/components/TodoForm.jsx:42 | Empty input, or input of only commas and whitespace, parses to `[]`. |
| ClientForm.ParseAppend | todo-list-react-app/src/components/TodoForm.jsx:36 | Parsing `a,b` gives the entries of `a` and then those of `b`, so order is preserved. |
| ClientForm.ParseJoin | todo-list-react-app/src/components/TodoForm.jsx:36 | A list of entries written out comma-separated parses back to itself. |
| ClientForm.ParseIdempotent | todo-list-react-app/src/components/TodoForm.jsx:36 | Writing out a parsed list and parsing it again changes nothing. |
| ClientForm.ParseExample | todo-list-react-app/src/components/TodoForm.jsx:36 | `" work , ,urgent "` parses to `["work", "urgent"]`. |
| ClientForm.OnChange | todo-list-react-app/src/components/TodoForm.jsx:12-42 | Each input replaces only its own field and copies the other four. Tags and assigned users take the parsed list. |
| ClientPagination.PrevClick | todo-list-react-app/src/components/Pagination.jsx:14-15 | Previous works exactly when the page is above 1, and asks for `currentPage - 1`, which is at least 1. |
| ClientPagination.NextClick | todo-list-react-app/src/components/Pagination.jsx:29-30 | Next works exactly when the page is below the page count, and asks for `currentPage + 1`, which is at most the page count. |
| ClientPagination.NextUndoesPrev | todo-list-react-app/src/components/Pagination.jsx:14-30 | Next after Previous returns to the starting page. |
| ClientPagination.PrevUndoesNext | todo-list-react-app/src/components/Pagination.jsx:14-30 | Previous after Next returns to the starting page. |
| ClientPagination.ClicksStayInRange | todo-list-react-app/src/components/Pagination.jsx:14-30 | From a page within `1..totalPages`, every click lands within that range. |
| ClientApp.ChooseCurrentUser | todo-list-react-app/src/components/TodoApp.jsx:67-68 | The client picks a listed user named `john_doe` if there is one, else the first user. With no users there is no current user. |
| ClientApp.ClientStartsAsServerDefault | todo-list-react-app/src/components/TodoApp.jsx:63-72 | With unique names, the client starts as the same user the inline server acts for when a request names nobody. |
| ClientApp.NumberOr | todo-list-react-app/src/components/TodoApp.jsx:82-84 | A counter read with a logical-or default `d`: an absent value or `0` gives `d`, and any other number is used as is. |
| ClientApp.LoadTodos | todo-list-react-app/src/components/TodoApp.jsx:74-91 | With no current user nothing changes. A failed request only sets the error. Otherwise todos default to `[]`. A missing or zero `currentPage`, `totalPages` or `totalTodos` reads as 1, 1 or 0; a present non-zero one is used as sent; the page numbers are never 0. |
| ClientApp.AsListReply | todo-list-express-server/index.js:190-198 | The list body has `todos` at the top level, but none of the three counters the client reads. |
| ClientApp.LoadedPaginationIsStuck | todo-list-react-app/src/components/TodoApp.jsx:80-85 | As written, every list response leaves the client on page 1 of 1 with Next disabled. |
| ClientApp.StuckWithTwentyFive | todo-list-react-app/src/components/TodoApp.jsx:80-85 | 25 matches at 10 per page: the server reports 3 pages, yet Next is disabled. |
| ClientApp.LoadListBody | todo-list-react-app/src/components/TodoApp.jsx:74-91 | The corrected reader takes the page, the page count and the total from `pagination.current`, `pagination.total` and `pagination.totalCount`. |
| ClientApp.NextReachesNextPage | todo-list-react-app/src/components/Pagination.jsx:29-30 | With the corrected reader, Next works exactly when there are later pages, and asks for page + 1, which is non-empty. |
| ClientApp.NextFollowsServer | todo-list-react-app/src/components/TodoApp.jsx:113-115 | Against the list route, the page Next requests holds some matches in any order the server may sort them into. |
| ClientApp.SeveralPrioritiesMatchNothing | todo-list-express-server/index.js:169 | The server compares `priority` with a stored name for exact equality. So a `priority` that joins two or more names with commas, as the client sends checked boxes, matches no todo. |
| ClientApp.FormBody | todo-list-react-app/src/components/TodoApp.jsx:119 | The create request sends every form field. |
| ClientApp.AddTodo | todo-list-react-app/src/components/TodoApp.jsx:117-126 | On success the client reloads the current page, closes the dialog and resets the form. On failure only the error is set: the form and the dialog's open state are kept. |
| ClientApp.EmptyFormIsRefused | todo-list-react-app/src/components/TodoApp.jsx:122 | The reset form is empty with priority `medium`. Submitting it unchanged gets 400 `Title is required`. |
| ClientApp.TypedListsAreStored | todo-list-react-app/src/components/TodoForm.jsx:36-42 | A created todo carries exactly the tags and assigned users parsed from the typed text. |

## Left out

- User routes (`GET /api/users`, `routes/userRouter.js`) and the user schema beyond the username index. Only the username lookup is modelled.
- Mongoose internals. `populate` is not modelled. ObjectIds become naturals supplied by the caller. Malformed ids, which raise a `CastError`, are not modelled, and neither are index creation and database failures.
- Query values that are not plain strings: arrays from repeated parameters, and non-numeric, zero or negative `page` or `limit`. Page and limit are positive integers (`Positive`).
- TodoQuery.SortKey: an empty or `$`-prefixed `sortBy` builds a sort path the database refuses, so the route's `catch` answers 500. The model gives every document the same key and answers 200.
- TodoQuery.SortKey: a sort on an array field (`tags`, `assignedUsers`, `notes`) or on a field the documents lack gives every document the same key. MongoDB's ordering of mixed-type and array values is not modelled. Ties are left unordered by the contract, which admits any arrangement sorted by the key.
- JSON body type coercions. A non-string `title` or a non-boolean `completed` in an update are out of scope. Bodies carry typed optional fields.
- TodoModel.SchemaValid: the model checks only the `required` title on save. Every stored priority is valid by construction.
- The router's behaviour when a request names no user. `findOne({ username: undefined })` is driver-dependent, and the model treats it as a failed lookup.
- Date rendering in CSV (`${todo.createdAt}`) is a parameter `dateText`. Response headers (`Content-Type`, `Content-Disposition`) are not modelled.
- TodoExport.CsvRowRecoverable: states recoverability only for fields without `"`. No escaping is done, so a quote inside a field breaks the row, and the model does not characterise how.
- The client's `todoApi.js` request plumbing (URLs, `fetch`, error propagation), rendering components, modals, search term and the user switcher. A request's outcome is passed to the client steps as a value.
- The client's `loading` flag, which `loadTodos` sets before the request and clears in its `finally` (todo-list-react-app/src/components/TodoApp.jsx:78, 89), is not part of `View`. It only drives rendering, so no step of the model reads it.
- ClientApp.LoadTodos: `x || d` is modelled on JSON numbers only (absent or `0`). Other falsy JSON values (`null`, `false`, `''`, `NaN`) are not modelled.

## Findings

| source | as written | input that shows it | evidently intended | confidence | as-written member | corrected member |
|---|---|---|---|---|---|---|
| todo-list-react-app/src/components/TodoApp.jsx:80-85 | `loadTodos` reads `data.currentPage`, `data.totalPages` and `data.totalTodos`, but the list route answers with `pagination: { current, total, count, totalCount }` (todo-list-express-server/index.js:190-198) | 25 todos for the current user, 10 per page: the server reports `total: 3`, yet the client shows page 1 of 1 and Next stays disabled | read `data.pagination.current`, `data.pagination.total` and `data.pagination.totalCount`, so Next is enabled exactly when later pages exist | not executed | ClientApp.LoadedPaginationIsStuck | ClientApp.NextReachesNextPage |

=== FILE: client_app.dfy ===
/** The state logic of `TodoApp`: choosing the current user, reading a list
    response into the view, and resetting the form after an add. Requests
    to the server are replaced by their answers, passed in as values. */
module ClientApp {
  import opened Prelude
  import opened Text
  import opened TodoModel
  import opened TodoStore
  import opened Identity
  import opened Http
  import opened TodoQuery
  import opened TodoHandlers
  import opened ClientForm
  import opened ClientPagination

  /** `CURRENT_USER`, the user the client starts as. */
  const ClientUsername: string := "john_doe"

  // -------------------------------------------------------- current user

  /** `data.find(u => u.username === CURRENT_USER) || data[0]`; an empty
      user list leaves no current user. */
  function ChooseCurrentUser(users: seq<User>): (r: Option<User>)
    ensures r.None? <==> |users| == 0
    ensures r.Some? ==> r.value in users
    ensures (exists u :: u in users && u.username == ClientUsername) ==>
      r.Some? && r.value.username == ClientUsername
    ensures (forall u :: u in users ==> u.username != ClientUsername) && |users| > 0 ==>
      r == Some(users[0])
  {
    var found := FindUser(users, ClientUsername);
    if found.Some? then found
    else if |users| == 0 then None
    else Some(users[0])
  }

  /** When `john_doe` exists and usernames are unique, the client starts as
      the very user the inline server acts for when a request names nobody. */
  lemma ClientStartsAsServerDefault(users: seq<User>, u: User)
    requires UniqueUsernames(users) && u in users && u.username == ClientUsername
    ensures ChooseCurrentUser(users) == Some(u)
    ensures CurrentUser(InlineApp, users, Hint(None, None)) == Ok(u)
  {
    FindUserUnique(users, ClientUsername, u);
  }

  // ----------------------------------------------------------- list view

  /** A JSON number read with `x || d`: absent and `0` both give `d`. */
  function NumberOr(x: Option<int>, d: int): (r: int)
    ensures x.None? ==> r == d
    ensures x == Some(0) ==> r == d
    ensures x.Some? && x.value != 0 ==> r == x.value
  {
    if x.Some? && x.value != 0 then x.value else d
  }

  /** `pagination` state: `{ currentPage, totalPages, totalTodos }`. */
  datatype PaginationState = PaginationState(currentPage: int, totalPages: int, totalTodos: int)

  const InitialPagination: PaginationState := PaginationState(1, 1, 0)

  /** What the client shows: the todos, the pagination and an error. */
  datatype View = View(todos: seq<Todo>, pagination: PaginationState, error: Option<string>)

  const LoadError: string := "Failed to load todos"

  /** The top-level keys `loadTodos` reads from a list response. */
  datatype ListReply = ListReply(
    todos: Option<seq<Todo>>,
    currentPage: Option<int>,
    totalPages: Option<int>,
    totalTodos: Option<int>)

  /** `loadTodos` as written. With no current user nothing happens; a failed
      request (`None`) only sets the error; otherwise the todos and the
      three counters are read from the top level of the response, each
      falling back to its default. */
  function LoadTodos(currentUser: Option<User>, view: View, reply: Option<ListReply>): (r: View)
    ensures currentUser.None? ==> r == view
    ensures currentUser.Some? && reply.None? ==>
      r == view.(error := Some(LoadError))
    ensures currentUser.Some? && reply.Some? ==>
      && r.error == view.error
      && r.todos == reply.value.todos.GetOr([])
      && (reply.value.currentPage.None? || reply.value.currentPage.value == 0 ==> r.pagination.currentPage == 1)
      && (reply.value.totalPages.None? || reply.value.totalPages.value == 0 ==> r.pagination.totalPages == 1)
      && (reply.value.totalTodos.None? || reply.value.totalTodos.value == 0 ==> r.pagination.totalTodos == 0)
      && (reply.value.currentPage.Some? && reply.value.currentPage.value != 0 ==>
            r.pagination.currentPage == reply.value.currentPage.value)
      && (reply.value.totalPages.Some? && reply.value.totalPages.value != 0 ==>
            r.pagination.totalPages == reply.value.totalPages.value)
      && (reply.value.totalTodos.Some? && reply.value.totalTodos.value != 0 ==>
            r.pagination.totalTodos == reply.value.totalTodos.value)
      && r.pagination.currentPage != 0 && r.pagination.totalPages != 0
  {
    if currentUser.None? then view
    else if reply.None? then view.(error := Some(LoadError))
    else
      var d := reply.value;
      View(d.todos.GetOr([]),
           PaginationState(NumberOr(d.currentPage, 1), NumberOr(d.totalPages, 1), NumberOr(d.totalTodos, 0)),
           view.error)
  }

  /** The server's list body as the client's reader sees it: `todos` is at
      the top level, but the counters sit under `pagination` with the names
      `current`, `total` and `totalCount`, so none of `currentPage`,
      `totalPages` and `totalTodos` is present. */
  function AsListReply(b: ListBody): (r: ListReply)
    ensures r.todos == Some(b.todos)
    ensures r.currentPage.None? && r.totalPages.None? && r.totalTodos.None?
  {
    ListReply(Some(b.todos), None, None, None)
  }

  /** As written, every successful list response leaves the client on page
      1 of 1 with 0 todos, so Next is always disabled. */
  lemma LoadedPaginationIsStuck(server: Server, users: seq<User>, store: Store, q: ListRequest,
                                 u: User, view: View)
    requires CurrentUser(server, users, q.hint).Ok?
    ensures var after := LoadTodos(Some(u), view, Some(AsListReply(List(server, users, store, q).body)));
      && after.pagination == InitialPagination
      && NextClick(after.pagination.currentPage, after.pagination.totalPages).None?
  {
  }

  /** A concrete case: twenty-five of the current user's todos, listed ten
      per page. The server reports three pages, yet the client cannot leave
      page 1. */
  lemma StuckWithTwentyFive(server: Server, users: seq<User>, store: Store, q: ListRequest, view: View)
    requires CurrentUser(server, users, q.hint).Ok?
    requires q.page == None && q.limit == Some(10)
    requires |Select(store, BuildQuery(CurrentUser(server, users, q.hint).value.id, q))| == 25
    ensures List(server, users, store, q).Reply?
    ensures List(server, users, store, q).body.pagination.total == 3
    ensures var u := CurrentUser(server, users, q.hint).value;
      var after := LoadTodos(Some(u), view, Some(AsListReply(List(server, users, store, q).body)));
      NextClick(after.pagination.currentPage, after.pagination.totalPages).None?
  {
    var u := CurrentUser(server, users, q.hint).value;
    LoadedPaginationIsStuck(server, users, store, q, u, view);
    assert PageCount(25, 10) == 3;
  }

  /** `loadTodos` reading the counters where the server puts them:
      `data.pagination.current || 1`, `data.pagination.total || 1` and
      `data.pagination.totalCount || 0`. */
  function LoadListBody(currentUser: Option<User>, view: View, reply: Option<ListBody>): (r: View)
    ensures currentUser.None? ==> r == view
    ensures currentUser.Some? && reply.None? ==> r == view.(error := Some(LoadError))
    ensures currentUser.Some? && reply.Some? ==>
      && r.error == view.error
      && r.todos == reply.value.todos
      && r.pagination.totalTodos == reply.value.pagination.totalCount
      && (reply.value.pagination.current != 0 ==> r.pagination.currentPage == reply.value.pagination.current)
      && (reply.value.pagination.total != 0 ==> r.pagination.totalPages == reply.value.pagination.total)
  {
    if currentUser.None? then view
    else if reply.None? then view.(error := Some(LoadError))
    else
      var p := reply.value.pagination;
      View(reply.value.todos,
           PaginationState(NumberOr(Some(p.current), 1), NumberOr(Some(p.total), 1), NumberOr(Some(p.totalCount), 0)),
           view.error)
  }

  /** Read correctly, Next is enabled exactly when there are pages after
      the current one, and the page it asks for is not empty: here `sorted`
      is the sorted matches, of which `body` is page `page`. */
  lemma NextReachesNextPage(u: User, view: View, body: ListBody, sorted: seq<Todo>,
                            page: Positive, limit: Positive)
    requires body.pagination.current == page
    requires body.pagination.total == PageCount(|sorted|, limit)
    ensures var after := LoadListBody(Some(u), view, Some(body));
      var next := NextClick(after.pagination.currentPage, after.pagination.totalPages);
      && (next.Some? <==> page < PageCount(|sorted|, limit))
      && (next.Some? ==> next.value == page + 1 && |PageOf(sorted, next.value, limit)| > 0)
  {
    if page < PageCount(|sorted|, limit) {
      PageSizes(sorted, page + 1, limit);
    }
  }

  /** So, against the list route: the page Next requests after a list
      response holds some of the matches, whichever order the server sorted
      them into. */
  lemma NextFollowsServer(server: Server, users: seq<User>, store: Store, q: ListRequest,
                          view: View, sorted: seq<Todo>)
    requires CurrentUser(server, users, q.hint).Ok?
    requires |sorted| == |Select(store, BuildQuery(CurrentUser(server, users, q.hint).value.id, q))|
    ensures var u := CurrentUser(server, users, q.hint).value;
      var after := LoadListBody(Some(u), view, Some(List(server, users, store, q).body));
      var next := NextClick(after.pagination.currentPage, after.pagination.totalPages);
      next.Some? ==> |PageOf(sorted, next.value, q.limit.GetOr(DefaultLimit))| > 0
  {
    var u := CurrentUser(server, users, q.hint).value;
    var body := List(server, users, store, q).body;
    NextReachesNextPage(u, view, body, sorted, q.page.GetOr(DefaultPage), q.limit.GetOr(DefaultLimit));
  }

  /** The client sends the checked priorities joined with commas as the one
      `priority` parameter, while the server compares it with the stored
      name as a whole. With two or more priorities checked, no todo
      matches. */
  lemma SeveralPrioritiesMatchNothing(t: Todo, owner: Id, q: ListRequest, checked: seq<string>)
    requires |checked| >= 2 && q.priority == Some(Join(checked, ','))
    ensures !Matches(t, BuildQuery(owner, q))
  {
    var joined := Join(checked, ',');
    assert joined[|checked[0]|] == ',';
    assert ',' in joined;
    assert ',' !in PriorityName(t.priority);
  }

  // ------------------------------------------------------------- add todo

  /** The form `handleAddTodo` starts from and returns to. */
  const EmptyForm: FormTodo := FormTodo("", "", "medium", [], [])

  const CreateError: string := "Failed to create todo"

  /** What `handleAddTodo` leaves behind: the form, whether the add dialog
      is open, the page it reloads (if any) and the error. */
  datatype AddStep = AddStep(form: FormTodo, dialogOpen: bool, reload: Option<int>, error: Option<string>)

  /** `JSON.stringify(newTodo)`: every form field is sent. */
  function FormBody(f: FormTodo): (b: CreateBody)
    ensures b.title == Some(f.title) && b.description == Some(f.description)
    ensures b.priority == Some(f.priority)
    ensures b.tags == Some(f.tags) && b.assignedUsers == Some(f.assignedUsers)
  {
    CreateBody(Some(f.title), Some(f.description), Some(f.priority), Some(f.tags), Some(f.assignedUsers))
  }

  /** `handleAddTodo`, given whether the create request succeeded and
      whether the add dialog was open. On success it reloads the current
      page, closes the dialog and resets the form; on failure it only sets
      the error, so the form and the dialog stay as they were. */
  function AddTodo(form: FormTodo, dialogOpen: bool, pagination: PaginationState, error: Option<string>,
                   created: bool): (r: AddStep)
    ensures created ==> (r.form == EmptyForm && !r.dialogOpen
                         && r.reload == Some(pagination.currentPage) && r.error == error)
    ensures !created ==> (r.form == form && r.dialogOpen == dialogOpen && r.reload.None?
                          && r.error == Some(CreateError))
  {
    if created then AddStep(EmptyForm, false, Some(pagination.currentPage), error)
    else AddStep(form, dialogOpen, None, Some(CreateError))
  }

  /** The reset form is blank: empty title and description, priority
      `'medium'`, no tags and no assigned users. Submitting it unchanged is
      refused by the server with `Title is required`. */
  lemma EmptyFormIsRefused(server: Server, users: seq<User>, store: Store, h: Hint,
                           freshId: Id, now: Time)
    requires CurrentUser(server, users, h).Ok?
    ensures EmptyForm.title == "" && EmptyForm.description == "" && EmptyForm.priority == "medium"
    ensures EmptyForm.tags == [] && EmptyForm.assignedUsers == []
    ensures Create(server, users, store, h, FormBody(EmptyForm), freshId, now)
      == Outcome(ErrorReply(StatusBadRequest, MissingTitle), store)
  {
  }

  /** A form filled in through the inputs creates a todo carrying exactly
      the tags and assigned users parsed from the text typed, each
      non-empty, trimmed and comma-free. */
  lemma TypedListsAreStored(server: Server, users: seq<User>, store: Store, h: Hint,
                            f: FormTodo, tagsText: string, usersText: string,
                            freshId: Id, now: Time)
    requires CurrentUser(server, users, h).Ok?
    requires !BlankText(Some(f.title)) && f.priority in PriorityNames
    ensures var typed := OnChange(OnChange(f, EditTags(tagsText)), EditAssignedUsers(usersText));
      var r := Create(server, users, store, h, FormBody(typed), freshId, now);
      && r.response.Reply?
      && r.response.body.tags == ParseList(tagsText)
      && r.response.body.assignedUsers == ParseList(usersText)
      && (forall i :: 0 <= i < |r.response.body.tags| ==> Item(r.response.body.tags[i]))
  {
    ParseItems(tagsText);
  }
}

=== FILE: client_filters.dfy ===
/** The client's filter checkboxes. `TodoApp` keeps `{ priorities, tags }`
    and the sidebar keeps its own list of checked priorities; both toggle a
    value the same way: drop every occurrence when it is present, append it
    when it is absent. */
module ClientFilters {
  import opened Prelude

  /** `prev.includes(v) ? prev.filter(x => x !== v) : [...prev, v]`. */
  function Toggle(xs: seq<string>, v: string): (r: seq<string>)
    ensures v in xs ==> v !in r && |r| < |xs|
    ensures v !in xs ==> |r| == |xs| + 1 && r[|xs|] == v && r[..|xs|] == xs
    ensures v in r <==> v !in xs
    ensures forall x :: x != v ==> (x in r <==> x in xs)
  {
    if v in xs then
      RemoveShrinks(xs, v);
      Remove(xs, v)
    else xs + [v]
  }

  /** Dropping a value that occurs makes the list strictly shorter. */
  lemma {:induction false} RemoveShrinks(xs: seq<string>, v: string)
    requires v in xs
    ensures |Remove(xs, v)| < |xs|
  {
    if xs[0] != v {
      RemoveShrinks(xs[1..], v);
    }
  }

  /** Apart from `v` itself, toggling changes nothing, order included:
      with every `v` filtered out, the list before and after is the same. */
  lemma ToggleOthersUnchanged(xs: seq<string>, v: string)
    ensures Remove(Toggle(xs, v), v) == Remove(xs, v)
  {
    if v !in xs {
      RemoveAppend(xs, [v], v);
      assert [v][1..] == [];
    } else {
      RemoveIdempotent(xs, v);
    }
  }

  lemma {:induction false} RemoveIdempotent(xs: seq<string>, v: string)
    ensures Remove(Remove(xs, v), v) == Remove(xs, v)
  {
    if |xs| > 0 {
      RemoveIdempotent(xs[1..], v);
      if xs[0] != v {
        assert ([xs[0]] + Remove(xs[1..], v))[1..] == Remove(xs[1..], v);
      }
    }
  }

  /** Checking and then unchecking a value that was unchecked restores the
      list exactly. */
  lemma ToggleTwiceRestores(xs: seq<string>, v: string)
    requires v !in xs
    ensures Toggle(Toggle(xs, v), v) == xs
  {
    RemoveAppend(xs, [v], v);
    assert [v][1..] == [];
  }

  /** The two lists `TodoApp` filters by. */
  datatype FilterKind = Priorities | Tags

  datatype Filters = Filters(priorities: seq<string>, tags: seq<string>) {
    function Get(kind: FilterKind): seq<string> {
      match kind
      case Priorities => priorities
      case Tags => tags
    }
  }

  /** `handleFilterChange(type, value)`: toggles `value` in the list named by
      `type` and copies the other list unchanged. */
  function ChangeFilter(f: Filters, kind: FilterKind, v: string): (r: Filters)
    ensures r.Get(kind) == Toggle(f.Get(kind), v)
    ensures forall other :: other != kind ==> r.Get(other) == f.Get(other)
  {
    match kind
    case Priorities => f.(priorities := Toggle(f.priorities, v))
    case Tags => f.(tags := Toggle(f.tags, v))
  }

  /** Changing a filter twice with a value that was not selected leaves
      both lists as they were. */
  lemma ChangeFilterTwice(f: Filters, kind: FilterKind, v: string)
    requires v !in f.Get(kind)
    ensures ChangeFilter(ChangeFilter(f, kind, v), kind, v) == f
  {
    ToggleTwiceRestores(f.Get(kind), v);
  }

  /** What `handlePriorityChange` produces: the sidebar's new state and the
      list handed to `onFilter` as `{ priorities }`. */
  datatype SidebarStep = SidebarStep(state: seq<string>, emitted: seq<string>)

  /** `handlePriorityChange(priority)`. */
  function PriorityChange(checked: seq<string>, priority: string): (r: SidebarStep)
    ensures r.emitted == r.state
    ensures r.state == Toggle(checked, priority)
  {
    var next := Toggle(checked, priority);
    SidebarStep(next, next)
  }

  /** A checkbox shows `priorityFilters.includes(p)`: after a change, only
      the clicked box flips. */
  lemma PriorityChangeFlipsOneBox(checked: seq<string>, priority: string, p: string)
    ensures var after := PriorityChange(checked, priority).state;
      (p in after) == (if p == priority then p !in checked else p in checked)
  {
  }
}

=== FILE: client_form.dfy ===
/** The todo form. Each input's `onChange` hands the parent a copy of the
    form with only its own field replaced; the tags and assigned-users
    inputs turn comma-separated text into a list. */
module ClientForm {
  import opened Prelude
  import opened Text

  /** The form's value (`newTodo` or the todo being edited). */
  datatype FormTodo = FormTodo(
    title: string,
    description: string,
    priority: string,
    tags: seq<string>,
    assignedUsers: seq<string>)

  /** One `onChange` event: the input it came from and its text. */
  datatype FormEdit =
    | EditTitle(text: string)
    | EditDescription(text: string)
    | EditPriority(text: string)
    | EditTags(text: string)
    | EditAssignedUsers(text: string)

  /** A list item as the form produces it: non-empty, trimmed, comma-free. */
  predicate Item(s: string) {
    s != "" && IsTrimmed(s) && ',' !in s
  }

  /** `pieces.map(p => p.trim()).filter(p => p)`: each piece trimmed, the
      empty ones dropped, order kept. */
  function Clean(pieces: seq<string>): seq<string> {
    if |pieces| == 0 then []
    else
      var t := Trim(pieces[0]);
      (if t == "" then [] else [t]) + Clean(pieces[1..])
  }

  /** The cleaned items of comma-free pieces are items. */
  lemma CleanItems(pieces: seq<string>)
    requires forall k :: 0 <= k < |pieces| ==> ',' !in pieces[k]
    ensures forall i :: 0 <= i < |Clean(pieces)| ==> Item(Clean(pieces)[i])
  {
    CleanNonEmpty(pieces);
    CleanTrimmed(pieces);
    CleanCommaFree(pieces);
  }

  lemma {:induction false} CleanNonEmpty(pieces: seq<string>)
    ensures forall i :: 0 <= i < |Clean(pieces)| ==> Clean(pieces)[i] != ""
  {
    if |pieces| > 0 {
      CleanNonEmpty(pieces[1..]);
    }
  }

  lemma {:induction false} CleanTrimmed(pieces: seq<string>)
    ensures forall i :: 0 <= i < |Clean(pieces)| ==> IsTrimmed(Clean(pieces)[i])
  {
    if |pieces| > 0 {
      CleanTrimmed(pieces[1..]);
    }
  }

  lemma {:induction false} CleanCommaFree(pieces: seq<string>)
    requires forall k :: 0 <= k < |pieces| ==> ',' !in pieces[k]
    ensures forall i :: 0 <= i < |Clean(pieces)| ==> ',' !in Clean(pieces)[i]
  {
    if |pieces| > 0 {
      CleanCommaFree(pieces[1..]);
      TrimKeepsOut(pieces[0], ',');
    }
  }

  /** Nothing survives cleaning exactly when every piece is whitespace. */
  lemma {:induction false} CleanEmpty(pieces: seq<string>)
    ensures Clean(pieces) == [] <==> forall k :: 0 <= k < |pieces| ==> AllSpace(pieces[k])
  {
    if |pieces| > 0 {
      CleanEmpty(pieces[1..]);
      assert forall k :: 1 <= k < |pieces| ==> pieces[k] == pieces[1..][k - 1];
    }
  }

  lemma {:induction false} CleanAppend(a: seq<string>, b: seq<string>)
    ensures Clean(a + b) == Clean(a) + Clean(b)
  {
    if |a| == 0 {
      assert a + b == b;
    } else {
      assert a + b == [a[0]] + (a[1..] + b) && a == [a[0]] + a[1..];
      CleanCons(a[0], a[1..] + b);
      CleanCons(a[0], a[1..]);
      CleanAppend(a[1..], b);
    }
  }

  /** `text.split(',').map(t => t.trim()).filter(t => t)`; what it yields
      is stated by the lemmas below. */
  function ParseList(text: string): seq<string> {
    Clean(Split(text, ','))
  }

  /** No parsed entry is empty, untrimmed or holds a comma. */
  lemma ParseItems(text: string)
    ensures forall i :: 0 <= i < |ParseList(text)| ==> Item(ParseList(text)[i])
  {
    CleanItems(Split(text, ','));
  }

  /** The parsed list is empty exactly when every comma-separated piece is
      whitespace. */
  lemma ParseEmpty(text: string)
    ensures ParseList(text) == [] <==> forall k :: 0 <= k < |Split(text, ',')| ==> AllSpace(Split(text, ',')[k])
  {
    assert ParseList(text) == Clean(Split(text, ','));
    CleanEmpty(Split(text, ','));
  }

  /** Trimming adds no characters. */
  lemma TrimKeepsOut(s: string, c: char)
    requires c !in s
    ensures c !in Trim(s)
  {
    TrimChars(s, c);
  }

  /** `onChange({ ...todo, [field]: value })`. */
  function OnChange(t: FormTodo, e: FormEdit): (r: FormTodo)
    ensures e.EditTitle? ==> r == t.(title := e.text)
    ensures e.EditDescription? ==> r == t.(description := e.text)
    ensures e.EditPriority? ==> r == t.(priority := e.text)
    ensures e.EditTags? ==> r == t.(tags := ParseList(e.text))
    ensures e.EditAssignedUsers? ==> r == t.(assignedUsers := ParseList(e.text))
  {
    match e
    case EditTitle(s) => FormTodo(s, t.description, t.priority, t.tags, t.assignedUsers)
    case EditDescription(s) => FormTodo(t.title, s, t.priority, t.tags, t.assignedUsers)
    case EditPriority(s) => FormTodo(t.title, t.description, s, t.tags, t.assignedUsers)
    case EditTags(s) => FormTodo(t.title, t.description, t.priority, ParseList(s), t.assignedUsers)
    case EditAssignedUsers(s) => FormTodo(t.title, t.description, t.priority, t.tags, ParseList(s))
  }

  // ---------------------------------------------------------- properties

  /** Pieces separated by a comma parse separately and in order: the list
      parsed from `a,b` is the list from `a` followed by the list from `b`. */
  lemma ParseAppend(a: string, b: string)
    ensures ParseList(a + [','] + b) == ParseList(a) + ParseList(b)
  {
    SplitAppend(a, b, ',');
    CleanAppend(Split(a, ','), Split(b, ','));
  }

  /** Empty input, or input made of commas and whitespace only, parses to
      `[]`. */
  lemma ParseBlank(text: string)
    requires forall i :: 0 <= i < |text| ==> text[i] == ',' || IsSpace(text[i])
    ensures ParseList(text) == []
  {
    var pieces := Split(text, ',');
    forall k | 0 <= k < |pieces| ensures AllSpace(pieces[k]) {
      JoinPieceChars(pieces, k, text);
    }
    ParseEmpty(text);
  }

  /** Every character of a piece occurs in the joined string. */
  lemma JoinPieceChars(pieces: seq<string>, k: nat, text: string)
    requires k < |pieces| && Join(pieces, ',') == text
    requires forall i :: 0 <= i < |text| ==> text[i] == ',' || IsSpace(text[i])
    requires forall j :: 0 <= j < |pieces| ==> ',' !in pieces[j]
    ensures AllSpace(pieces[k])
  {
    forall i | 0 <= i < |pieces[k]| ensures IsSpace(pieces[k][i]) {
      var c := pieces[k][i];
      InJoin(pieces, k, ',', c);
    }
  }

  lemma {:induction false} InJoin(xs: seq<string>, k: nat, sep: char, c: char)
    requires k < |xs| && c in xs[k]
    ensures c in Join(xs, sep)
  {
    if |xs| > 1 {
      if k > 0 {
        InJoin(xs[1..], k - 1, sep, c);
      }
    }
  }

  /** A single comma-free piece parses to its trimmed self, or to nothing
      when that is empty. */
  lemma OnePiece(s: string)
    requires ',' !in s
    ensures ParseList(s) == (if Trim(s) == "" then [] else [Trim(s)])
  {
    SplitNoSep(s, ',');
    assert [s][1..] == [];
    assert Clean([s]) == (if Trim(s) == "" then [] else [Trim(s)]) + Clean([]);
  }

  /** Cleaning leaves a list of items as it is. */
  lemma {:induction false} CleanKeepsItems(xs: seq<string>)
    requires forall i :: 0 <= i < |xs| ==> Item(xs[i])
    ensures Clean(xs) == xs
  {
    if |xs| > 0 {
      CleanKeepsItems(xs[1..]);
      TrimTrimmed(xs[0]);
      assert xs == [xs[0]] + xs[1..];
    }
  }

  /** A list of items written out comma-separated parses back to itself. */
  lemma ParseJoin(xs: seq<string>)
    requires forall i :: 0 <= i < |xs| ==> Item(xs[i])
    ensures ParseList(Join(xs, ',')) == xs
  {
    if |xs| == 0 {
      OnePiece("");
    } else {
      SplitJoin(xs, ',');
      CleanKeepsItems(xs);
    }
  }

  /** Parsing is idempotent: writing the parsed list out and parsing again
      gives the same list. */
  lemma ParseIdempotent(text: string)
    ensures ParseList(Join(ParseList(text), ',')) == ParseList(text)
  {
    ParseItems(text);
    ParseJoin(ParseList(text));
  }

  /** `" work , ,urgent "` becomes `["work", "urgent"]`. */
  lemma ParseExample()
    ensures ParseList(" work , ,urgent ") == ["work", "urgent"]
  {
    ExamplePieces();
    ExampleTrims();
    CleanCons(" work ", [" ", "urgent "]);
    CleanCons(" ", ["urgent "]);
    CleanCons("urgent ", []);
  }

  lemma CleanCons(p: string, rest: seq<string>)
    ensures Clean([p] + rest) == (if Trim(p) == "" then [] else [Trim(p)]) + Clean(rest)
  {
    assert ([p] + rest)[1..] == rest;
  }

  lemma ExamplePieces()
    ensures Split(" work , ,urgent ", ',') == [" work ", " ", "urgent "]
  {
    var pieces := [" work ", " ", "urgent "];
    assert pieces[1..] == [" ", "urgent "] && pieces[1..][1..] == ["urgent "];
    assert Join(pieces, ',') == " work , ,urgent ";
    SplitJoin(pieces, ',');
  }

  lemma ExampleTrims()
    ensures Trim(" work ") == "work" && Trim(" ") == "" && Trim("urgent ") == "urgent"
  {
    TrimWork();
    assert AllSpace(" ");
    TrimUrgent();
  }

  lemma TrimWork()
    ensures Trim(" work ") == "work"
  {
    assert " work "[1..] == "work ";
    assert !IsSpace('w') && !IsSpace('k');
    assert TrimStart("work ") == "work ";
    assert TrimStart(" work ") == "work ";
    assert "work "[..4] == "work";
    assert TrimEnd("work") == "work";
    assert TrimEnd("work ") == "work";
  }

  lemma TrimUrgent()
    ensures Trim("urgent ") == "urgent"
  {
    assert !IsSpace('u') && !IsSpace('t');
    assert TrimStart("urgent ") == "urgent ";
    assert "urgent "[..6] == "urgent";
    assert TrimEnd("urgent") == "urgent";
    assert TrimEnd("urgent ") == "urgent";
  }
}

=== FILE: csv_export.dfy ===
/** `GET /api/todos/export`: all of the current user's todos, newest first,
    as the JSON array or (with `format=csv`) as CSV text. The CSV is a fixed
    header line followed by one row per todo, every field wrapped in double
    quotes with no escaping, tags and assigned users joined by `;`, and rows
    joined by newlines with none after the last. */
module TodoExport {
  import opened Prelude
  import opened Text
  import opened TodoModel
  import opened TodoStore
  import opened Identity
  import opened Http
  import opened Sorting
  import opened TodoQuery

  /** The column titles of the header line. */
  const Columns: seq<string> :=
    ["Title", "Description", "Priority", "Completed", "Tags", "Assigned Users", "Created At"]

  /** `Title,Description,Priority,Completed,Tags,Assigned Users,Created At`. */
  const HeaderLine: string := Join(Columns, ',')

  /** The header as sent, newline included. */
  const CsvHeader: string := HeaderLine + "\n"

  /** `${bool}`. */
  function BoolText(b: bool): string {
    if b then "true" else "false"
  }

  /** The seven columns of a todo, before quoting; `dateText` is the
      rendering of a `Date` as text, which is not modelled. */
  function CsvFields(t: Todo, dateText: Time -> string): (r: seq<string>)
    ensures |r| == |Columns| == 7
    ensures r[0] == t.title && r[1] == t.description && r[2] == PriorityName(t.priority)
    ensures r[3] == (if t.completed then "true" else "false")
    ensures |t.tags| == 0 ==> r[4] == ""
    ensures |t.assignedUsers| == 1 ==> r[5] == t.assignedUsers[0]
    ensures r[6] == dateText(t.createdAt)
  {
    [t.title, t.description, PriorityName(t.priority), BoolText(t.completed),
     Join(t.tags, ';'), Join(t.assignedUsers, ';'), dateText(t.createdAt)]
  }

  /** `"${field}"`, with no escaping of quotes inside. */
  function Quoted(f: string): string {
    "\"" + f + "\""
  }

  /** Fields quoted and separated by commas. */
  function QuotedRow(fs: seq<string>): string {
    if |fs| == 0 then ""
    else if |fs| == 1 then Quoted(fs[0])
    else Quoted(fs[0]) + "," + QuotedRow(fs[1..])
  }

  function CsvRow(t: Todo, dateText: Time -> string): string {
    QuotedRow(CsvFields(t, dateText))
  }

  function Rows(todos: seq<Todo>, dateText: Time -> string): (r: seq<string>)
    ensures |r| == |todos|
    ensures forall i :: 0 <= i < |todos| ==> r[i] == CsvRow(todos[i], dateText)
  {
    seq(|todos|, i requires 0 <= i < |todos| => CsvRow(todos[i], dateText))
  }

  /** `csvHeader + todos.map(row).join('\n')`. */
  function Csv(todos: seq<Todo>, dateText: Time -> string): (r: string)
    ensures |r| >= |CsvHeader| && r[..|CsvHeader|] == CsvHeader
    ensures todos == [] ==> r == CsvHeader
  {
    CsvHeader + Join(Rows(todos, dateText), '\n')
  }

  datatype ExportBody = JsonExport(todos: seq<Todo>) | CsvExport(text: string)

  /** `{ user }` with no other filter. */
  function OwnerOnly(uid: Id): Query {
    Query(uid, None, None, None)
  }

  function ByCreatedAt(t: Todo): seq<int> {
    SortKey("createdAt", t)
  }

  /** `Todo.find({ user }).sort({ createdAt: -1 })`: the user's todos,
      newest first. */
  function Newest(store: Store, uid: Id): (r: seq<Todo>)
    ensures Sorted(r, ByCreatedAt, true)
    ensures multiset(r) == multiset(Select(store, OwnerOnly(uid)))
    ensures forall t :: t in r <==> t in store && t.owner == uid
  {
    var mine := Select(store, OwnerOnly(uid));
    var todos := SortBy(mine, ByCreatedAt, true);
    assert forall t :: t in todos <==> t in multiset(mine);
    todos
  }

  /** The handler. `format` is `req.query.format`; anything but `'csv'`,
      including nothing, gives JSON. */
  function Export(server: Server, users: seq<User>, store: Store, h: Hint, format: Option<string>,
                  dateText: Time -> string): (r: Response<ExportBody>)
    ensures CurrentUser(server, users, h).Err? ==> r.ErrorReply? && r.status == CatchStatus(ExportRoute)
    ensures CurrentUser(server, users, h).Ok? ==>
      r == ExportOf(store, CurrentUser(server, users, h).value.id, format, dateText)
  {
    var cu := CurrentUser(server, users, h);
    if cu.Err? then IdentityFailure(ExportRoute, cu.error)
    else ExportOf(store, cu.value.id, format, dateText)
  }

  /** The reply of the export route once the user `uid` is known: 200 with
      the user's todos newest first, as CSV exactly when `format` is
      `'csv'`. */
  function ExportOf(store: Store, uid: Id, format: Option<string>, dateText: Time -> string): (r: Response<ExportBody>)
    ensures r.Reply? && r.status == StatusOk
    ensures r.body.CsvExport? <==> format == Some("csv")
    ensures var todos := Newest(store, uid);
      && Sorted(todos, ByCreatedAt, true)
      && multiset(todos) == multiset(Select(store, OwnerOnly(uid)))
      && (forall t :: t in todos <==> t in store && t.owner == uid)
      && r.body == (if format == Some("csv") then CsvExport(Csv(todos, dateText)) else JsonExport(todos))
  {
    var todos := Newest(store, uid);
    var fmt := if Truthy(format) then format.value else "json";
    assert fmt == "csv" <==> format == Some("csv");
    Reply(StatusOk, if fmt == "csv" then CsvExport(Csv(todos, dateText)) else JsonExport(todos))
  }

  // ---------------------------------------------------------- properties

  /** Lines and rows: when no field holds a newline, splitting the CSV at
      newlines gives the header line and then exactly one line per todo. */
  lemma CsvLines(todos: seq<Todo>, dateText: Time -> string)
    requires forall i :: 0 <= i < |todos| ==> '\n' !in CsvRow(todos[i], dateText)
    ensures |todos| > 0 ==> Split(Csv(todos, dateText), '\n') == [HeaderLine] + Rows(todos, dateText)
    ensures |todos| == 0 ==> Split(Csv(todos, dateText), '\n') == [HeaderLine, ""]
  {
    CsvShape(todos, dateText);
    HeaderHasNoNewline();
    LinesAfter(HeaderLine, Rows(todos, dateText));
  }

  /** A first line, a newline, and lines joined with newlines. */
  lemma LinesAfter(first: string, lines: seq<string>)
    requires '\n' !in first
    requires forall i :: 0 <= i < |lines| ==> '\n' !in lines[i]
    ensures |lines| > 0 ==> Split(first + ['\n'] + Join(lines, '\n'), '\n') == [first] + lines
    ensures |lines| == 0 ==> Split(first + ['\n'] + Join(lines, '\n'), '\n') == [first, ""]
  {
    SplitFirstLine(first, Join(lines, '\n'), '\n');
    if |lines| > 0 {
      SplitJoin(lines, '\n');
    }
  }

  /** A first line free of the separator splits off as one piece. */
  lemma SplitFirstLine(h: string, rest: string, sep: char)
    requires sep !in h
    ensures Split(h + [sep] + rest, sep) == [h] + Split(rest, sep)
  {
    SplitAppend(h, rest, sep);
    SplitNoSep(h, sep);
  }

  lemma CsvShape(todos: seq<Todo>, dateText: Time -> string)
    ensures Csv(todos, dateText) == HeaderLine + ['\n'] + Join(Rows(todos, dateText), '\n')
  {
    assert CsvHeader == HeaderLine + ['\n'];
  }

  /** The header names the seven columns and holds no newline. */
  lemma HeaderHasNoNewline()
    ensures Split(HeaderLine, ',') == Columns
    ensures '\n' !in HeaderLine
  {
    assert forall k :: 0 <= k < |Columns| ==> ',' !in Columns[k] && '\n' !in Columns[k];
    CleanJoin(Columns, ',', '\n');
  }

  /** Pieces free of the separator and of another character `c` join into
      a string without `c` that splits back into the pieces. */
  lemma CleanJoin(xs: seq<string>, sep: char, c: char)
    requires |xs| > 0 && c != sep
    requires forall k :: 0 <= k < |xs| ==> sep !in xs[k] && c !in xs[k]
    ensures Split(Join(xs, sep), sep) == xs
    ensures c !in Join(xs, sep)
  {
    SplitJoin(xs, sep);
    if c in Join(xs, sep) {
      JoinChars(xs, sep, c);
    }
  }

  /** A newline inside a row can only come from a field. */
  lemma RowNewlines(fs: seq<string>)
    requires forall i :: 0 <= i < |fs| ==> '\n' !in fs[i]
    ensures '\n' !in QuotedRow(fs)
  {
    if |fs| > 1 {
      RowNewlines(fs[1..]);
    }
  }

  /** The pieces a quoted row falls into when split at double quotes:
      `""`, then each field followed by the `,` between fields, then a
      final `""`. */
  function QuoteSplit(fs: seq<string>): (r: seq<string>)
    requires |fs| >= 1
    ensures |r| == 2 * |fs| + 1
    ensures r[0] == "" && r[|r| - 1] == ""
    ensures forall i :: 0 <= i < |fs| ==> r[2 * i + 1] == fs[i]
    ensures forall i :: 1 <= i < |fs| ==> r[2 * i] == ","
  {
    if |fs| == 1 then ["", fs[0], ""]
    else
      var rest := QuoteSplit(fs[1..]);
      var r := ["", fs[0]] + [","] + rest[1..];
      assert forall i :: 1 <= i < |fs| ==> r[2 * i + 1] == rest[2 * (i - 1) + 1];
      assert forall i :: 2 <= i < |fs| ==> r[2 * i] == rest[2 * (i - 1)];
      r
  }

  /** A quoted field followed by the rest of a row. */
  lemma QuotedShape(f: string, y: string)
    ensures Quoted(f) + y == ['"'] + (f + ['"'] + y)
  {
    assert Quoted(f) == ['"'] + f + ['"'];
  }

  lemma SplitQuoted(f: string, y: string)
    requires '"' !in f
    ensures Split(Quoted(f) + y, '"') == ["", f] + Split(y, '"')
  {
    var x := f + ['"'] + y;
    QuotedShape(f, y);
    SplitLeadingSep(x, '"');
    SplitAppend(f, y, '"');
    SplitNoSep(f, '"');
  }

  /** A quoted field, a comma, and a row whose pieces are known. */
  lemma SplitQuotedComma(f: string, tail: string, rest: seq<string>)
    requires '"' !in f
    requires Split(tail, '"') == rest && rest[0] == ""
    ensures Split(Quoted(f) + "," + tail, '"') == ["", f] + [","] + rest[1..]
  {
    var y := [','] + tail;
    assert Quoted(f) + "," + tail == Quoted(f) + y;
    SplitQuoted(f, y);
    SplitComma(tail, rest);
    assert ["", f] + ([","] + rest[1..]) == ["", f] + [","] + rest[1..];
  }

  /** A comma before a row that starts with a quote. */
  lemma SplitComma(tail: string, rest: seq<string>)
    requires Split(tail, '"') == rest && rest[0] == ""
    ensures Split([','] + tail, '"') == [","] + rest[1..]
  {
    SplitLeadingOther(',', tail, '"');
    assert [','] + rest[0] == ",";
  }

  /** Fields without double quotes can be read back from a row: they are
      the odd-numbered pieces between quotes. */
  lemma {:induction false} QuotedRowSplits(fs: seq<string>)
    requires |fs| >= 1
    requires forall i :: 0 <= i < |fs| ==> '"' !in fs[i]
    ensures Split(QuotedRow(fs), '"') == QuoteSplit(fs)
  {
    if |fs| == 1 {
      SplitQuoted(fs[0], "");
      assert QuotedRow(fs) == Quoted(fs[0]) + "";
    } else {
      QuotedRowSplits(fs[1..]);
      SplitQuotedComma(fs[0], QuotedRow(fs[1..]), QuoteSplit(fs[1..]));
    }
  }

  /** So a todo whose seven fields hold no double quote is recoverable from
      its CSV row, tags and assigned users included (given they contain no
      `;` and are not empty lists): the row splits at its quotes into an
      empty piece, the seven fields with a `,` between each two, and a final
      empty piece. */
  lemma CsvRowRecoverable(t: Todo, dateText: Time -> string)
    requires forall i :: 0 <= i < 7 ==> '"' !in CsvFields(t, dateText)[i]
    ensures var pieces := Split(CsvRow(t, dateText), '"');
      && |pieces| == 15
      && pieces[0] == "" && pieces[14] == ""
      && (forall k :: 1 <= k < 7 ==> pieces[2 * k] == ",")
      && pieces[1] == t.title && pieces[3] == t.description
      && pieces[5] == PriorityName(t.priority) && pieces[7] == BoolText(t.completed)
      && (|t.tags| > 0 && (forall i :: 0 <= i < |t.tags| ==> ';' !in t.tags[i]) ==>
            Split(pieces[9], ';') == t.tags)
      && (|t.assignedUsers| > 0 && (forall i :: 0 <= i < |t.assignedUsers| ==> ';' !in t.assignedUsers[i]) ==>
            Split(pieces[11], ';') == t.assignedUsers)
      && pieces[13] == dateText(t.createdAt)
  {
    var fs := CsvFields(t, dateText);
    QuotedRowSplits(fs);
    var pieces := QuoteSplit(fs);
    assert pieces[2 * 0 + 1] == fs[0] && pieces[2 * 1 + 1] == fs[1] && pieces[2 * 2 + 1] == fs[2];
    assert pieces[2 * 3 + 1] == fs[3] && pieces[2 * 4 + 1] == fs[4] && pieces[2 * 5 + 1] == fs[5];
    assert pieces[2 * 6 + 1] == fs[6];
    if |t.tags| > 0 && (forall i :: 0 <= i < |t.tags| ==> ';' !in t.tags[i]) {
      SplitJoin(t.tags, ';');
    }
    if |t.assignedUsers| > 0 && (forall i :: 0 <= i < |t.assignedUsers| ==> ';' !in t.assignedUsers[i]) {
      SplitJoin(t.assignedUsers, ';');
    }
  }

  /** The row for tags `["a", "b"]` and assigned users `["@x"]` carries
      `"a;b"` and `"@x"` in the Tags and Assigned Users columns. */
  lemma CsvJoinExample(t: Todo, dateText: Time -> string)
    requires t.tags == ["a", "b"] && t.assignedUsers == ["@x"]
    ensures CsvFields(t, dateText)[4] == "a;b" && CsvFields(t, dateText)[5] == "@x"
  {
    assert t.tags[1..] == ["b"];
    assert Join(t.tags, ';') == "a" + [';'] + "b";
  }
}

=== FILE: handlers.dfy ===
/** The single-document routes: read, create, update, delete and add-note.
    Each is a pure transition from the store before the request to a
    response and the store after it. Every lookup is scoped by
    `{ _id, user }`, so a user can neither see nor change another user's
    todo, whatever id they send. */
module TodoHandlers {
  import opened Prelude
  import opened Text
  import opened TodoModel
  import opened TodoStore
  import opened Identity
  import opened Http

  /** A response together with the store it leaves behind. */
  datatype Outcome<+T> = Outcome(response: Response<T>, store: Store)

  // ---------------------------------------------------------------- read

  /** `GET /api/todos/:id`. */
  function Read(server: Server, users: seq<User>, store: Store, h: Hint, id: Id): (r: Response<Todo>)
    ensures CurrentUser(server, users, h).Err? ==> r.ErrorReply? && r.status == CatchStatus(ReadRoute)
    ensures CurrentUser(server, users, h).Ok? ==>
      var uid := CurrentUser(server, users, h).value.id;
      && (r.Reply? <==> exists k :: 0 <= k < |store| && store[k].id == id && store[k].owner == uid)
      && (r.Reply? ==> r.status == StatusOk && r.body in store && r.body.id == id && r.body.owner == uid)
      && (r.ErrorReply? ==> r.status == StatusNotFound && r.failure == NotFound)
  {
    var cu := CurrentUser(server, users, h);
    if cu.Err? then IdentityFailure(ReadRoute, cu.error)
    else
      var k := FindScoped(store, id, cu.value.id);
      if k.None? then ErrorReply(StatusNotFound, NotFound)
      else Reply(StatusOk, store[k.value])
  }

  // -------------------------------------------------------------- create

  /** The JSON body of `POST /api/todos`. */
  datatype CreateBody = CreateBody(
    title: Option<string>,
    description: Option<string>,
    priority: Option<string>,
    tags: Option<seq<string>>,
    assignedUsers: Option<seq<string>>)

  /** `!title || title.trim() === ''`. */
  predicate BlankText(s: Option<string>) {
    !Truthy(s) || Trim(s.value) == ""
  }

  /** The document the handler builds: the trimmed title, `description ||
      ''`, `priority || 'medium'`, `tags || []`, `assignedUsers || []`,
      no notes, the current user as owner. */
  function CreateDraft(b: CreateBody): Draft
    requires !BlankText(b.title)
  {
    Draft(
      Some(Trim(b.title.value)),
      Some(if Truthy(b.description) then b.description.value else ""),
      Some(if Truthy(b.priority) then b.priority.value else PriorityName(DefaultPriority)),
      None,
      Some(b.tags.GetOr([])),
      Some(b.assignedUsers.GetOr([])),
      Some([]))
  }

  /** `POST /api/todos`. `freshId` and `now` are the id and the time the
      database assigns. */
  function Create(server: Server, users: seq<User>, store: Store, h: Hint, b: CreateBody,
                  freshId: Id, now: Time): (r: Outcome<Todo>)
    ensures CurrentUser(server, users, h).Err? ==> r.response.ErrorReply? && r.response.status == CatchStatus(CreateRoute)
    ensures r.response.Reply? <==>
      CurrentUser(server, users, h).Ok? && !BlankText(b.title)
      && (!Truthy(b.priority) || b.priority.value in PriorityNames)
    ensures r.response.ErrorReply? ==> r.store == store
    ensures CurrentUser(server, users, h).Ok? ==>
      OthersOf(r.store, CurrentUser(server, users, h).value.id) == OthersOf(store, CurrentUser(server, users, h).value.id)
    ensures CurrentUser(server, users, h).Ok? && BlankText(b.title) ==>
      r.response == ErrorReply(StatusBadRequest, MissingTitle)
    ensures CurrentUser(server, users, h).Ok? && !BlankText(b.title)
            && Truthy(b.priority) && b.priority.value !in PriorityNames ==>
      r.response == ErrorReply(StatusBadRequest, Invalid(PriorityNotInEnum(b.priority.value)))
    ensures r.response.Reply? ==>
      var t := r.response.body;
      && r.response.status == StatusCreated
      && r.store == store + [t]
      && t.id == freshId && t.owner == CurrentUser(server, users, h).value.id
      && t.title == Trim(b.title.value) && GoodTitle(t)
      && t.description == (if Truthy(b.description) then b.description.value else "")
      && PriorityName(t.priority) == (if Truthy(b.priority) then b.priority.value else "medium")
      && !t.completed
      && t.tags == b.tags.GetOr([]) && t.assignedUsers == b.assignedUsers.GetOr([])
      && t.notes == []
      && t.createdAt == now && t.updatedAt == now
  {
    var cu := CurrentUser(server, users, h);
    if cu.Err? then Outcome(IdentityFailure(CreateRoute, cu.error), store)
    else if BlankText(b.title) then Outcome(ErrorReply(StatusBadRequest, MissingTitle), store)
    else
      var made := Instantiate(CreateDraft(b), freshId, cu.value.id, now);
      CreateDraftAccepted(b, freshId, cu.value.id, now);
      if made.Err? then Outcome(ErrorReply(StatusBadRequest, Invalid(made.error)), store)
      else
        CreateDraftFields(b, freshId, cu.value.id, now);
        OthersOfInsert(store, made.value, cu.value.id);
        Outcome(Reply(StatusCreated, made.value), store + [made.value])
  }

  /** The schema accepts the handler's draft exactly when the priority is
      absent, empty or one of the three names. */
  lemma CreateDraftAccepted(b: CreateBody, id: Id, owner: Id, now: Time)
    requires !BlankText(b.title)
    ensures Instantiate(CreateDraft(b), id, owner, now).Ok? <==>
      !Truthy(b.priority) || b.priority.value in PriorityNames
  {
  }

  /** The document built from the handler's draft. */
  lemma CreateDraftFields(b: CreateBody, id: Id, owner: Id, now: Time)
    requires !BlankText(b.title)
    requires Instantiate(CreateDraft(b), id, owner, now).Ok?
    ensures var t := Instantiate(CreateDraft(b), id, owner, now).value;
      && t.id == id && t.owner == owner
      && t.title == Trim(b.title.value) && GoodTitle(t)
      && t.description == (if Truthy(b.description) then b.description.value else "")
      && PriorityName(t.priority) == (if Truthy(b.priority) then b.priority.value else "medium")
      && !t.completed
      && t.tags == b.tags.GetOr([]) && t.assignedUsers == b.assignedUsers.GetOr([])
      && t.notes == []
      && t.createdAt == now && t.updatedAt == now
  {
    var d := CreateDraft(b);
    var t := Instantiate(d, id, owner, now).value;
    SuppliedFieldsKept(d, id, owner, now);
    assert t.title == Trim(b.title.value);
    assert GoodTitle(t);
  }

  // -------------------------------------------------------------- update

  /** The JSON body of `PUT /api/todos/:id`; absent fields stay as they are. */
  datatype UpdateBody = UpdateBody(
    title: Option<string>,
    description: Option<string>,
    priority: Option<string>,
    completed: Option<bool>,
    tags: Option<seq<string>>,
    assignedUsers: Option<seq<string>>)

  /** The `$set` document after validation: the title trimmed, the priority
      checked against the enumeration. */
  datatype Patch = Patch(
    title: Option<string>,
    description: Option<string>,
    priority: Option<Priority>,
    completed: Option<bool>,
    tags: Option<seq<string>>,
    assignedUsers: Option<seq<string>>)

  /** The update validators: a supplied title must not trim to `''`
      (`required`), a supplied priority must be in the enumeration. */
  function ValidatePatch(b: UpdateBody): (r: Result<Patch, SchemaError>)
    ensures r.Ok? <==>
      (b.title.Some? ==> Trim(b.title.value) != "") && (b.priority.Some? ==> b.priority.value in PriorityNames)
    ensures r.Ok? ==> (r.value.title.Some? <==> b.title.Some?)
    ensures r.Ok? && b.title.Some? ==> r.value.title.value == Trim(b.title.value)
    ensures r.Ok? ==> (r.value.priority.Some? <==> b.priority.Some?)
    ensures r.Ok? && b.priority.Some? ==> PriorityName(r.value.priority.value) == b.priority.value
    ensures r.Ok? ==> r.value.description == b.description && r.value.completed == b.completed
    ensures r.Ok? ==> r.value.tags == b.tags && r.value.assignedUsers == b.assignedUsers
  {
    var title := if b.title.Some? then Some(Trim(b.title.value)) else None;
    if title.Some? && !RequiredString(title) then Err(TitleRequired)
    else if b.priority.Some? && ParsePriority(b.priority.value).None? then Err(PriorityNotInEnum(b.priority.value))
    else
      var p := if b.priority.Some? then ParsePriority(b.priority.value) else None;
      Ok(Patch(title, b.description, p, b.completed, b.tags, b.assignedUsers))
  }

  /** `findOneAndUpdate` with `$set: patch`; `updatedAt` becomes `now`. */
  function ApplyPatch(t: Todo, p: Patch, now: Time): (r: Todo)
    ensures r.id == t.id && r.owner == t.owner && r.notes == t.notes && r.createdAt == t.createdAt
    ensures r.updatedAt == now
    ensures r.title == (if p.title.Some? then p.title.value else t.title)
    ensures r.description == (if p.description.Some? then p.description.value else t.description)
    ensures r.priority == (if p.priority.Some? then p.priority.value else t.priority)
    ensures r.completed == (if p.completed.Some? then p.completed.value else t.completed)
    ensures r.tags == (if p.tags.Some? then p.tags.value else t.tags)
    ensures r.assignedUsers == (if p.assignedUsers.Some? then p.assignedUsers.value else t.assignedUsers)
  {
    t.(title := p.title.GetOr(t.title),
       description := p.description.GetOr(t.description),
       priority := p.priority.GetOr(t.priority),
       completed := p.completed.GetOr(t.completed),
       tags := p.tags.GetOr(t.tags),
       assignedUsers := p.assignedUsers.GetOr(t.assignedUsers),
       updatedAt := now)
  }

  /** A supplied field takes the supplied value (the title trimmed); every
      other field, the id, the owner, the notes and the creation time are
      kept. */
  predicate PartialUpdateOf(after: Todo, before: Todo, b: UpdateBody, now: Time) {
    && after.id == before.id && after.owner == before.owner
    && after.notes == before.notes && after.createdAt == before.createdAt
    && after.updatedAt == now
    && after.title == (if b.title.Some? then Trim(b.title.value) else before.title)
    && after.description == b.description.GetOr(before.description)
    && PriorityName(after.priority) == (if b.priority.Some? then b.priority.value else PriorityName(before.priority))
    && after.completed == b.completed.GetOr(before.completed)
    && after.tags == b.tags.GetOr(before.tags)
    && after.assignedUsers == b.assignedUsers.GetOr(before.assignedUsers)
  }

  /** `PUT /api/todos/:id`. Validation precedes the lookup, so an invalid
      body is refused with 400 even when the todo does not exist. */
  function Update(server: Server, users: seq<User>, store: Store, h: Hint, id: Id, b: UpdateBody,
                  now: Time): (r: Outcome<Todo>)
    ensures CurrentUser(server, users, h).Err? ==> r.response.ErrorReply? && r.response.status == CatchStatus(UpdateRoute)
    ensures r.response.ErrorReply? ==> r.store == store
    ensures CurrentUser(server, users, h).Ok? && ValidatePatch(b).Err? ==>
      r.response == ErrorReply(StatusBadRequest, Invalid(ValidatePatch(b).error))
    ensures CurrentUser(server, users, h).Ok? && ValidatePatch(b).Ok? ==>
      var uid := CurrentUser(server, users, h).value.id;
      var k := FindScoped(store, id, uid);
      && (k.None? ==> r.response == ErrorReply(StatusNotFound, NotFound))
      && (k.Some? ==> r.response.Reply? && r.response.status == StatusOk
                      && r.store == store[k.value := r.response.body]
                      && PartialUpdateOf(r.response.body, store[k.value], b, now))
    ensures CurrentUser(server, users, h).Ok? ==>
      OthersOf(r.store, CurrentUser(server, users, h).value.id) == OthersOf(store, CurrentUser(server, users, h).value.id)
  {
    var cu := CurrentUser(server, users, h);
    if cu.Err? then Outcome(IdentityFailure(UpdateRoute, cu.error), store)
    else
      var p := ValidatePatch(b);
      if p.Err? then Outcome(ErrorReply(StatusBadRequest, Invalid(p.error)), store)
      else
        var k := FindScoped(store, id, cu.value.id);
        if k.None? then Outcome(ErrorReply(StatusNotFound, NotFound), store)
        else
          var t := ApplyPatch(store[k.value], p.value, now);
          OthersOfReplace(store, k.value, t, cu.value.id);
          Outcome(Reply(StatusOk, t), store[k.value := t])
  }

  // -------------------------------------------------------------- delete

  const DeletedMessage: string := "Todo deleted successfully"

  /** `DELETE /api/todos/:id`. */
  function Delete(server: Server, users: seq<User>, store: Store, h: Hint, id: Id): (r: Outcome<string>)
    ensures CurrentUser(server, users, h).Err? ==> r.response.ErrorReply? && r.response.status == CatchStatus(DeleteRoute)
    ensures r.response.ErrorReply? ==> r.store == store
    ensures CurrentUser(server, users, h).Ok? ==>
      var uid := CurrentUser(server, users, h).value.id;
      var k := FindScoped(store, id, uid);
      && (k.None? ==> r.response == ErrorReply(StatusNotFound, NotFound))
      && (k.Some? ==> r.response == Reply(StatusOk, DeletedMessage)
                      && r.store == store[..k.value] + store[k.value + 1..])
      && OthersOf(r.store, uid) == OthersOf(store, uid)
  {
    var cu := CurrentUser(server, users, h);
    if cu.Err? then Outcome(IdentityFailure(DeleteRoute, cu.error), store)
    else
      var k := FindScoped(store, id, cu.value.id);
      if k.None? then Outcome(ErrorReply(StatusNotFound, NotFound), store)
      else
        OthersOfRemove(store, k.value, cu.value.id);
        Outcome(Reply(StatusOk, DeletedMessage), store[..k.value] + store[k.value + 1..])
  }

  // ------------------------------------------------------------ add note

  /** `POST /api/todos/:id/notes`: content is checked first, then the todo
      is looked up, the note `{ content.trim(), now }` pushed and the
      document saved (which re-validates it). */
  function AddNote(server: Server, users: seq<User>, store: Store, h: Hint, id: Id,
                   content: Option<string>, now: Time): (r: Outcome<Todo>)
    ensures CurrentUser(server, users, h).Err? ==> r.response.ErrorReply? && r.response.status == CatchStatus(NoteRoute)
    ensures r.response.ErrorReply? ==> r.store == store
    ensures CurrentUser(server, users, h).Ok? && BlankText(content) ==>
      r.response == ErrorReply(StatusBadRequest, MissingNoteContent)
    ensures CurrentUser(server, users, h).Ok? && !BlankText(content) ==>
      var uid := CurrentUser(server, users, h).value.id;
      var k := FindScoped(store, id, uid);
      && (k.None? ==> r.response == ErrorReply(StatusNotFound, NotFound))
      && (k.Some? && SchemaValid(store[k.value]) ==>
            && r.response.Reply? && r.response.status == StatusOk
            && var before := store[k.value];
               var after := r.response.body;
               && r.store == store[k.value := after]
               && after.notes == before.notes + [Note(Trim(content.value), now)]
               && after == before.(notes := after.notes, updatedAt := now))
    ensures CurrentUser(server, users, h).Ok? ==>
      OthersOf(r.store, CurrentUser(server, users, h).value.id) == OthersOf(store, CurrentUser(server, users, h).value.id)
  {
    var cu := CurrentUser(server, users, h);
    if cu.Err? then Outcome(IdentityFailure(NoteRoute, cu.error), store)
    else if BlankText(content) then Outcome(ErrorReply(StatusBadRequest, MissingNoteContent), store)
    else
      var k := FindScoped(store, id, cu.value.id);
      if k.None? then Outcome(ErrorReply(StatusNotFound, NotFound), store)
      else
        var before := store[k.value];
        if !SchemaValid(before) then Outcome(ErrorReply(StatusBadRequest, Invalid(TitleRequired)), store)
        else
          var note := MakeNote(Trim(content.value), Some(now), now);
          var after := before.(notes := before.notes + [note], updatedAt := now);
          OthersOfReplace(store, k.value, after, cu.value.id);
          Outcome(Reply(StatusOk, after), store[k.value := after])
  }

  // ---------------------------------------------------------- properties

  /** A created todo can be read back by its creator, with every submitted
      field and the defaults in place. */
  lemma CreateThenRead(server: Server, users: seq<User>, store: Store, h: Hint, b: CreateBody,
                       freshId: Id, now: Time)
    requires !HasId(store, freshId)
    requires Create(server, users, store, h, b, freshId, now).response.Reply?
    ensures var c := Create(server, users, store, h, b, freshId, now);
      Read(server, users, c.store, h, freshId) == Reply(StatusOk, c.response.body)
  {
    var c := Create(server, users, store, h, b, freshId, now);
    var t := c.response.body;
    FindScopedAppended(store, t);
  }

  /** After a successful delete, reading the same id finds nothing. */
  lemma DeleteThenRead(server: Server, users: seq<User>, store: Store, h: Hint, id: Id)
    requires UniqueIds(store)
    requires Delete(server, users, store, h, id).response.Reply?
    ensures Read(server, users, Delete(server, users, store, h, id).store, h, id).ErrorReply?
    ensures |Delete(server, users, store, h, id).store| == |store| - 1
  {
    var uid := CurrentUser(server, users, h).value.id;
    var k := FindScoped(store, id, uid).value;
    var after := store[..k] + store[k + 1..];
    forall j | 0 <= j < |after| ensures after[j].id != id {
      if j < k { assert after[j] == store[j]; } else { assert after[j] == store[j + 1]; }
    }
  }

  /** Another user's todo is out of reach: with its id, read and delete
      answer 404, and update and add-note answer 400 or 404, all without
      touching the store. */
  lemma ForeignTodoUnreachable(server: Server, users: seq<User>, store: Store, h: Hint, k: nat,
                               ub: UpdateBody, content: Option<string>, now: Time)
    requires UniqueIds(store) && k < |store|
    requires CurrentUser(server, users, h).Ok?
    requires store[k].owner != CurrentUser(server, users, h).value.id
    ensures Read(server, users, store, h, store[k].id) == ErrorReply(StatusNotFound, NotFound)
    ensures Delete(server, users, store, h, store[k].id) == Outcome(ErrorReply(StatusNotFound, NotFound), store)
    ensures var u := Update(server, users, store, h, store[k].id, ub, now);
      u.response.ErrorReply? && u.response.status in {StatusBadRequest, StatusNotFound} && u.store == store
    ensures var n := AddNote(server, users, store, h, store[k].id, content, now);
      n.response.ErrorReply? && n.response.status in {StatusBadRequest, StatusNotFound} && n.store == store
  {
    FindScopedOwner(store, k, CurrentUser(server, users, h).value.id);
  }

  /** Create keeps the store invariant when the database supplies a fresh id. */
  lemma CreatePreservesInvariant(server: Server, users: seq<User>, store: Store, h: Hint, b: CreateBody,
                                 freshId: Id, now: Time)
    requires StoreInvariant(store) && !HasId(store, freshId)
    ensures StoreInvariant(Create(server, users, store, h, b, freshId, now).store)
  {
    var c := Create(server, users, store, h, b, freshId, now);
    if c.response.Reply? {
      InvariantAppend(store, c.response.body);
    }
  }

  /** Update keeps the store invariant: ids are untouched and a supplied
      title is trimmed and non-empty. */
  lemma UpdatePreservesInvariant(server: Server, users: seq<User>, store: Store, h: Hint, id: Id,
                                 b: UpdateBody, now: Time)
    requires StoreInvariant(store)
    ensures StoreInvariant(Update(server, users, store, h, id, b, now).store)
  {
    var r := Update(server, users, store, h, id, b, now);
    if r.response.Reply? {
      var k := FindScoped(store, id, CurrentUser(server, users, h).value.id).value;
      assert GoodTitle(store[k]);
      InvariantReplace(store, k, r.response.body);
    }
  }

  /** Delete keeps the store invariant. */
  lemma DeletePreservesInvariant(server: Server, users: seq<User>, store: Store, h: Hint, id: Id)
    requires StoreInvariant(store)
    ensures StoreInvariant(Delete(server, users, store, h, id).store)
  {
    var r := Delete(server, users, store, h, id);
    if r.response.Reply? {
      var k := FindScoped(store, id, CurrentUser(server, users, h).value.id).value;
      InvariantRemove(store, k);
    }
  }

  /** Adding a note keeps the store invariant, and it is append-only: one
      note more, the earlier ones unchanged and in order. */
  lemma AddNotePreservesInvariant(server: Server, users: seq<User>, store: Store, h: Hint, id: Id,
                                  content: Option<string>, now: Time)
    requires StoreInvariant(store)
    ensures StoreInvariant(AddNote(server, users, store, h, id, content, now).store)
    ensures var r := AddNote(server, users, store, h, id, content, now);
      r.response.Reply? ==>
        var k := FindScoped(store, id, CurrentUser(server, users, h).value.id).value;
        && |r.response.body.notes| == |store[k].notes| + 1
        && r.response.body.notes[..|store[k].notes|] == store[k].notes
  {
    var r := AddNote(server, users, store, h, id, content, now);
    if r.response.Reply? {
      var k := FindScoped(store, id, CurrentUser(server, users, h).value.id).value;
      assert GoodTitle(store[k]);
      InvariantReplace(store, k, r.response.body);
      var before := store[k].notes;
      assert r.response.body.notes[..|before|] == before;
    }
  }
}

=== FILE: http.dfy ===
/** Responses of the todo routes: a status code and either a body or an
    error. Every route first resolves the current user inside its `try`
    block, so an identity failure lands in that route's `catch`, whose
    status differs between routes. */
module Http {
  import opened Prelude
  import opened TodoModel
  import opened Identity

  datatype Route =
    | ExportRoute | ListRoute | ReadRoute
    | CreateRoute | UpdateRoute | DeleteRoute | NoteRoute

  const StatusOk: int := 200
  const StatusCreated: int := 201
  const StatusBadRequest: int := 400
  const StatusNotFound: int := 404
  const StatusServerError: int := 500

  /** The status each route's `catch` block answers with. */
  function CatchStatus(route: Route): (r: int)
    ensures r == StatusBadRequest <==> route.CreateRoute? || route.UpdateRoute? || route.NoteRoute?
    ensures r == StatusBadRequest || r == StatusServerError
  {
    match route
    case CreateRoute | UpdateRoute | NoteRoute => StatusBadRequest
    case ExportRoute | ListRoute | ReadRoute | DeleteRoute => StatusServerError
  }

  datatype Failure =
    | UnknownUser(username: Option<string>)  // "User <name> not found"
    | MissingTitle                           // "Title is required"
    | MissingNoteContent                     // "Note content is required"
    | NotFound                               // "Todo not found"
    | Invalid(error: SchemaError)            // a Mongoose ValidationError

  datatype Response<+T> = Reply(status: int, body: T) | ErrorReply(status: int, failure: Failure)

  /** The reply of a route whose identity resolution failed. */
  function IdentityFailure<T>(route: Route, e: IdentityError): (r: Response<T>)
    ensures r.ErrorReply? && r.failure.UnknownUser?
    ensures r.status == CatchStatus(route) && r.failure.username == e.username
  {
    ErrorReply(CatchStatus(route), UnknownUser(e.username))
  }
}

=== FILE: identity.dfy ===
/** `getCurrentUser`: which user a request acts for. The name comes from the
    `user` query parameter, else the `x-current-user` header, else (in the
    inline server only) the default `'john_doe'`; the user with exactly that
    username is looked up. Identity is unauthenticated: whoever supplies the
    name is that user. */
module Identity {
  import opened Prelude
  import opened TodoModel

  /** The two copies of the routes: `index.js`, which defines every route
      inline and is the one that runs, and `routes/todoRouter.js`. */
  datatype Server = InlineApp | MountedRouter

  const DefaultUsername: string := "john_doe"

  /** The identity hints carried by a request. */
  datatype Hint = Hint(queryUser: Option<string>, headerUser: Option<string>)

  datatype IdentityError = UserNotFound(username: Option<string>)

  /** `req.query.user || req.headers['x-current-user'] [|| 'john_doe']`. */
  function RequestedUsername(server: Server, h: Hint): (r: Option<string>)
    ensures Truthy(h.queryUser) ==> r == h.queryUser
    ensures !Truthy(h.queryUser) && Truthy(h.headerUser) ==> r == h.headerUser
    ensures !Truthy(h.queryUser) && !Truthy(h.headerUser) ==>
      r == (if server.InlineApp? then Some(DefaultUsername) else None)
    ensures r.None? <==> server.MountedRouter? && !Truthy(h.queryUser) && !Truthy(h.headerUser)
  {
    if Truthy(h.queryUser) then h.queryUser
    else if Truthy(h.headerUser) then h.headerUser
    else if server.InlineApp? then Some(DefaultUsername)
    else None
  }

  /** No two users share a username (the `unique` index on `username`). */
  predicate UniqueUsernames(users: seq<User>) {
    forall i, j :: 0 <= i < j < |users| ==> users[i].username != users[j].username
  }

  /** `User.findOne({ username })`: the first user with exactly that name. */
  function FindUser(users: seq<User>, name: string): (r: Option<User>)
    ensures r.Some? ==> r.value in users && r.value.username == name
    ensures r.None? <==> forall u :: u in users ==> u.username != name
  {
    if |users| == 0 then None
    else if users[0].username == name then Some(users[0])
    else FindUser(users[1..], name)
  }

  /** With unique usernames the lookup is determined by the name alone. */
  lemma {:induction false} FindUserUnique(users: seq<User>, name: string, u: User)
    requires UniqueUsernames(users)
    requires u in users && u.username == name
    ensures FindUser(users, name) == Some(u)
  {
    if users[0] != u {
      assert u in users[1..];
      FindUserUnique(users[1..], name, u);
    }
  }

  /** `getCurrentUser(req)`: the user named by the request, or an error
      naming the username that was not found. A request that names nobody
      (only possible with the router) looks up no user and fails. */
  function CurrentUser(server: Server, users: seq<User>, h: Hint): (r: Result<User, IdentityError>)
    ensures r.Ok? <==> exists u :: u in users && Some(u.username) == RequestedUsername(server, h)
    ensures r.Ok? ==> r.value in users && Some(r.value.username) == RequestedUsername(server, h)
    ensures r.Err? ==> r.error == UserNotFound(RequestedUsername(server, h))
  {
    var name := RequestedUsername(server, h);
    if name.None? then Err(UserNotFound(None))
    else
      var u := FindUser(users, name.value);
      if u.None? then Err(UserNotFound(name)) else Ok(u.value)
  }

  /** The two servers resolve identity identically unless the request names
      nobody; then the inline server acts for `john_doe` and the router
      fails. */
  lemma ServersAgreeWhenNamed(users: seq<User>, h: Hint)
    ensures Truthy(h.queryUser) || Truthy(h.headerUser) ==>
      CurrentUser(InlineApp, users, h) == CurrentUser(MountedRouter, users, h)
    ensures !Truthy(h.queryUser) && !Truthy(h.headerUser) ==>
      CurrentUser(MountedRouter, users, h).Err?
      && CurrentUser(InlineApp, users, h) == CurrentUser(InlineApp, users, Hint(Some(DefaultUsername), None))
  {
  }

  /** The query parameter takes precedence: a header naming someone else is
      ignored when the query names an existing user. */
  lemma QueryOverridesHeader(server: Server, users: seq<User>, h: Hint, u: User)
    requires UniqueUsernames(users)
    requires u in users && h.queryUser == Some(u.username) && u.username != ""
    ensures CurrentUser(server, users, h) == Ok(u)
  {
    FindUserUnique(users, u.username, u);
  }
}

=== FILE: list_query.dfy ===
/** `GET /api/todos`: the current user's todos, filtered, sorted and paged.
    The query document is `{ user, priority?, completed?, tags: { $in }? }`,
    the sort is on one field, and the page is the window
    `skip((page - 1) * limit).limit(limit)` of the sorted matches. */
module TodoQuery {
  import opened Prelude
  import opened Text
  import opened TodoModel
  import opened TodoStore
  import opened Identity
  import opened Http
  import opened Sorting

  /** A page number or page size; non-numeric and non-positive values are
      not modelled. */
  type Positive = n: nat | n >= 1 witness 1

  const DefaultPage: Positive := 1
  const DefaultLimit: Positive := 10
  const DefaultSortBy: string := "createdAt"
  const DefaultSortOrder: string := "desc"

  /** The query string of a list request. */
  datatype ListRequest = ListRequest(
    hint: Hint,
    page: Option<Positive>,
    limit: Option<Positive>,
    priority: Option<string>,
    completed: Option<string>,
    tags: Option<string>,
    sortBy: Option<string>,
    sortOrder: Option<string>)

  /** The query document handed to `Todo.find` and `countDocuments`. */
  datatype Query = Query(
    owner: Id,
    priority: Option<string>,
    completed: Option<bool>,
    anyTags: Option<seq<string>>)

  function BuildQuery(owner: Id, q: ListRequest): (r: Query)
    ensures r.owner == owner
    ensures r.priority.Some? <==> Truthy(q.priority)
    ensures r.priority.Some? ==> r.priority.value == q.priority.value
    ensures r.completed.Some? <==> q.completed.Some?
    ensures r.completed.Some? ==> (r.completed.value <==> q.completed.value == "true")
    ensures r.anyTags.Some? <==> Truthy(q.tags)
    ensures r.anyTags.Some? ==> r.anyTags.value == Split(q.tags.value, ',')
    ensures r.anyTags.Some? ==> Join(r.anyTags.value, ',') == q.tags.value
  {
    Query(
      owner,
      if Truthy(q.priority) then q.priority else None,
      if q.completed.Some? then Some(q.completed.value == "true") else None,
      if Truthy(q.tags) then Some(Split(q.tags.value, ',')) else None)
  }

  /** Whether a document satisfies the query; `tags: { $in: list }` on an
      array field holds when the two share an element. */
  predicate Matches(t: Todo, query: Query)
    ensures Matches(t, query) ==> t.owner == query.owner
    ensures Matches(t, query) && query.anyTags.Some? ==> |t.tags| > 0
    ensures query.priority.None? && query.completed.None? && query.anyTags.None? ==>
      (Matches(t, query) <==> t.owner == query.owner)
  {
    && t.owner == query.owner
    && (query.priority.Some? ==> PriorityName(t.priority) == query.priority.value)
    && (query.completed.Some? ==> t.completed == query.completed.value)
    && (query.anyTags.Some? ==> exists tag :: tag in t.tags && tag in query.anyTags.value)
  }

  /** `Todo.find(query)` before sorting: the matching documents in natural
      order, each as often as it is stored. */
  function Select(store: Store, query: Query): (r: Store)
    ensures forall t :: multiset(r)[t] == if Matches(t, query) then multiset(store)[t] else 0
    ensures forall t :: t in r <==> t in store && Matches(t, query)
  {
    if |store| == 0 then []
    else
      assert store == [store[0]] + store[1..];
      (if Matches(store[0], query) then [store[0]] else []) + Select(store[1..], query)
  }

  /** The code points of a string, as a sort key. */
  function Codes(s: string): (r: seq<int>)
    ensures |r| == |s|
    ensures forall i :: 0 <= i < |s| ==> r[i] == s[i] as int
  {
    seq(|s|, i requires 0 <= i < |s| => s[i] as int)
  }

  /** The fields of a todo document a list can be sorted by. */
  const SortFields: set<string> :=
    {"createdAt", "updatedAt", "_id", "title", "description", "priority", "completed"}

  /** The sort key of a document for `sort[field]`. A field the documents
      do not have gives every document the same key. */
  function SortKey(field: string, t: Todo): (r: seq<int>)
    ensures field !in SortFields ==> r == []
    ensures field in {"createdAt", "updatedAt", "_id", "completed"} ==> |r| == 1
    ensures field == "title" ==> |r| == |t.title|
  {
    if field == "createdAt" then [t.createdAt]
    else if field == "updatedAt" then [t.updatedAt]
    else if field == "_id" then [t.id]
    else if field == "title" then Codes(t.title)
    else if field == "description" then Codes(t.description)
    else if field == "priority" then Codes(PriorityName(t.priority))
    else if field == "completed" then [if t.completed then 1 else 0]
    else []
  }

  /** `sortOrder === 'desc' ? -1 : 1`, with `'desc'` the default. */
  function Descending(q: ListRequest): (r: bool)
    ensures r <==> q.sortOrder.None? || q.sortOrder.value == "desc"
  {
    q.sortOrder.GetOr(DefaultSortOrder) == "desc"
  }

  function KeyFor(q: ListRequest): Todo -> seq<int> {
    t => SortKey(q.sortBy.GetOr(DefaultSortBy), t)
  }

  /** `Math.ceil(total / limit)`. */
  function PageCount(total: nat, limit: Positive): (r: nat)
    ensures total <= r * limit
    ensures r == 0 || (r - 1) * limit < total
    ensures r == 0 <==> total == 0
  {
    var r := (total + limit - 1) / limit;
    DivBounds(total + limit - 1, limit);
    r
  }

  lemma DivBounds(n: nat, d: Positive)
    ensures (n / d) * d <= n < (n / d) * d + d
  {
  }

  /** `(page - 1) * limit`: how many matches come before the page. */
  function Skip(page: Positive, limit: Positive): (r: nat)
    ensures r + limit == page * limit
  {
    SkipStep(page, limit);
    (page - 1) * limit
  }

  lemma SkipStep(page: Positive, limit: Positive)
    ensures (page - 1) * limit + limit == page * limit
    ensures (page - 1) * limit >= 0
  {
  }

  /** `.skip((page - 1) * limit).limit(limit)` over an ordered result. */
  function PageOf<T>(s: seq<T>, page: Positive, limit: Positive): (r: seq<T>)
    ensures |r| <= limit
    ensures forall x :: x in r ==> x in s
    ensures Skip(page, limit) >= |s| ==> r == []
    ensures Skip(page, limit) < |s| ==> r == s[Skip(page, limit)..Min(page * limit, |s|)]
  {
    var skip := Skip(page, limit);
    if skip >= |s| then [] else s[skip..Min(skip + limit, |s|)]
  }

  function Min(a: int, b: int): int {
    if a <= b then a else b
  }

  datatype PageInfo = PageInfo(current: nat, total: nat, count: nat, totalCount: nat)

  /** `{ todos, pagination: { current, total, count, totalCount } }`. */
  datatype ListBody = ListBody(todos: seq<Todo>, pagination: PageInfo)

  /** `Todo.find(query).sort(sort)`: the matches, ordered by the requested
      key. */
  function Ordered(store: Store, query: Query, q: ListRequest): (r: seq<Todo>)
    ensures Sorted(r, KeyFor(q), Descending(q))
    ensures multiset(r) == multiset(Select(store, query))
    ensures forall t :: t in r ==> t in store && Matches(t, query)
  {
    var matches := Select(store, query);
    var sorted := SortBy(matches, KeyFor(q), Descending(q));
    assert forall t :: t in sorted ==> t in multiset(matches);
    sorted
  }

  /** The handler. The order of documents with equal keys is left to the
      database; the model fixes one arrangement, and its contract admits
      any arrangement sorted by the key. */
  function List(server: Server, users: seq<User>, store: Store, q: ListRequest): (r: Response<ListBody>)
    ensures CurrentUser(server, users, q.hint).Err? ==> r.ErrorReply? && r.status == CatchStatus(ListRoute)
    ensures CurrentUser(server, users, q.hint).Ok? ==> r.Reply? && r.status == StatusOk
    ensures r.Reply? ==>
      var u := CurrentUser(server, users, q.hint).value;
      var query := BuildQuery(u.id, q);
      var limit := q.limit.GetOr(DefaultLimit);
      var page := q.page.GetOr(DefaultPage);
      && (forall t :: t in r.body.todos ==> t in store && t.owner == u.id && Matches(t, query))
      && |r.body.todos| <= limit
      && r.body.pagination == PageInfo(page, PageCount(|Select(store, query)|, limit), |r.body.todos|, |Select(store, query)|)
      && exists sorted :: Sorted(sorted, KeyFor(q), Descending(q))
           && multiset(sorted) == multiset(Select(store, query))
           && r.body.todos == PageOf(sorted, page, limit)
  {
    var cu := CurrentUser(server, users, q.hint);
    if cu.Err? then IdentityFailure(ListRoute, cu.error)
    else
      var query := BuildQuery(cu.value.id, q);
      var matches := Select(store, query);
      var sorted := Ordered(store, query, q);
      var limit := q.limit.GetOr(DefaultLimit);
      var page := q.page.GetOr(DefaultPage);
      var todos := PageOf(sorted, page, limit);
      Reply(StatusOk, ListBody(todos, PageInfo(page, PageCount(|matches|, limit), |todos|, |matches|)))
  }

  /** The defaults of the list route: with no `limit` a page holds at most
      ten todos, and with no `sortBy` and no `sortOrder` the matches are
      arranged newest `createdAt` first. */
  lemma ListDefaults(server: Server, users: seq<User>, store: Store, q: ListRequest)
    requires CurrentUser(server, users, q.hint).Ok?
    requires q.limit.None? && q.sortBy.None? && q.sortOrder.None?
    ensures var body := List(server, users, store, q).body;
      var matches := Select(store, BuildQuery(CurrentUser(server, users, q.hint).value.id, q));
      && |body.todos| <= 10
      && body.pagination.total == PageCount(|matches|, 10)
      && exists sorted: seq<Todo> ::
           && (forall i, j :: 0 <= i < j < |sorted| ==> sorted[j].createdAt <= sorted[i].createdAt)
           && multiset(sorted) == multiset(matches)
           && body.todos == PageOf(sorted, q.page.GetOr(DefaultPage), 10)
  {
    var u := CurrentUser(server, users, q.hint).value;
    var matches := Select(store, BuildQuery(u.id, q));
    var body := List(server, users, store, q).body;
    var sorted: seq<Todo> :| Sorted(sorted, KeyFor(q), Descending(q))
      && multiset(sorted) == multiset(matches)
      && body.todos == PageOf(sorted, q.page.GetOr(DefaultPage), q.limit.GetOr(DefaultLimit));
    NewestFirst(sorted, q);
  }

  /** Under the default sort, sorted means newest `createdAt` first. */
  lemma NewestFirst(sorted: seq<Todo>, q: ListRequest)
    requires q.sortBy.None? && q.sortOrder.None?
    requires Sorted(sorted, KeyFor(q), Descending(q))
    ensures forall i, j :: 0 <= i < j < |sorted| ==> sorted[j].createdAt <= sorted[i].createdAt
  {
    forall i, j | 0 <= i < j < |sorted| ensures sorted[j].createdAt <= sorted[i].createdAt {
      assert InOrder(KeyFor(q)(sorted[i]), KeyFor(q)(sorted[j]), true);
      SingleKeyOrder(sorted[j].createdAt, sorted[i].createdAt);
    }
  }

  /** With a `sortOrder` other than `'desc'`, sorted means non-decreasing
      by the key: anything but the exact string `'desc'` sorts ascending. */
  lemma AscendingUnlessDesc(sorted: seq<Todo>, q: ListRequest)
    requires q.sortOrder.Some? && q.sortOrder.value != "desc"
    requires Sorted(sorted, KeyFor(q), Descending(q))
    ensures forall i, j :: 0 <= i < j < |sorted| ==> LexLe(KeyFor(q)(sorted[i]), KeyFor(q)(sorted[j]))
  {
    forall i, j | 0 <= i < j < |sorted| ensures LexLe(KeyFor(q)(sorted[i]), KeyFor(q)(sorted[j])) {
      assert InOrder(KeyFor(q)(sorted[i]), KeyFor(q)(sorted[j]), false);
    }
  }

  /** The list route with an explicit `sortOrder` that is not `'desc'`:
      the page is cut from an arrangement of the matches that is
      non-decreasing by the requested key. */
  lemma ListAscending(server: Server, users: seq<User>, store: Store, q: ListRequest)
    requires CurrentUser(server, users, q.hint).Ok?
    requires q.sortOrder.Some? && q.sortOrder.value != "desc"
    ensures var body := List(server, users, store, q).body;
      var matches := Select(store, BuildQuery(CurrentUser(server, users, q.hint).value.id, q));
      exists sorted: seq<Todo> ::
        && (forall i, j :: 0 <= i < j < |sorted| ==> LexLe(KeyFor(q)(sorted[i]), KeyFor(q)(sorted[j])))
        && multiset(sorted) == multiset(matches)
        && body.todos == PageOf(sorted, q.page.GetOr(DefaultPage), q.limit.GetOr(DefaultLimit))
  {
    var u := CurrentUser(server, users, q.hint).value;
    var matches := Select(store, BuildQuery(u.id, q));
    var body := List(server, users, store, q).body;
    var sorted: seq<Todo> :| Sorted(sorted, KeyFor(q), Descending(q))
      && multiset(sorted) == multiset(matches)
      && body.todos == PageOf(sorted, q.page.GetOr(DefaultPage), q.limit.GetOr(DefaultLimit));
    AscendingUnlessDesc(sorted, q);
  }

  /** How two documents compare under `sort[field]`: numbers and dates by
      value, `completed` with `false` first, and a field the documents do
      not have as a tie either way. */
  lemma SortKeyOrder(field: string, a: Todo, b: Todo)
    ensures field == "createdAt" ==> (LexLe(SortKey(field, a), SortKey(field, b)) <==> a.createdAt <= b.createdAt)
    ensures field == "updatedAt" ==> (LexLe(SortKey(field, a), SortKey(field, b)) <==> a.updatedAt <= b.updatedAt)
    ensures field == "_id" ==> (LexLe(SortKey(field, a), SortKey(field, b)) <==> a.id <= b.id)
    ensures field == "completed" ==> (LexLe(SortKey(field, a), SortKey(field, b)) <==> (a.completed ==> b.completed))
    ensures field !in SortFields ==> LexLe(SortKey(field, a), SortKey(field, b))
  {
    if field == "createdAt" {
      SingleKeyOrder(a.createdAt, b.createdAt);
    } else if field == "updatedAt" {
      SingleKeyOrder(a.updatedAt, b.updatedAt);
    } else if field == "_id" {
      SingleKeyOrder(a.id, b.id);
    } else if field == "completed" {
      SingleKeyOrder(if a.completed then 1 else 0, if b.completed then 1 else 0);
    }
  }

  /** One-element keys compare as their elements. */
  lemma SingleKeyOrder(a: int, b: int)
    ensures LexLe([a], [b]) <==> a <= b
  {
    assert [a][1..] == [] && [b][1..] == [];
  }

  /** The filter rules of the list route, for every request: a todo is
      selected exactly when it is the caller's, has the requested priority
      name when a truthy `priority` is given, has `completed` equal to
      `value === 'true'` when `completed` is given, and carries one of the
      comma-separated tags when a truthy `tags` is given. */
  lemma FilterRules(t: Todo, owner: Id, q: ListRequest)
    ensures Matches(t, BuildQuery(owner, q)) <==>
      && t.owner == owner
      && (Truthy(q.priority) ==> PriorityName(t.priority) == q.priority.value)
      && (q.completed.Some? ==> (t.completed <==> q.completed.value == "true"))
      && (Truthy(q.tags) ==> exists x :: x in t.tags && x in Split(q.tags.value, ','))
  {
    var query := BuildQuery(owner, q);
    if Truthy(q.tags) {
      assert query.anyTags == Some(Split(q.tags.value, ','));
    }
  }

  /** For example, the tags filter `work,urgent` admits exactly the caller's
      todos tagged `work` or `urgent`. */
  lemma TagsFilterIsAnyOf(t: Todo, owner: Id, q: ListRequest)
    requires q.tags.Some? && q.tags.value == "work,urgent"
    requires !Truthy(q.priority) && q.completed.None?
    ensures Matches(t, BuildQuery(owner, q)) <==> t.owner == owner && ("work" in t.tags || "urgent" in t.tags)
  {
    WorkUrgentPieces();
    FilterRules(t, owner, q);
  }

  lemma WorkUrgentPieces()
    ensures Split("work,urgent", ',') == ["work", "urgent"]
  {
    var pieces := ["work", "urgent"];
    assert pieces[1..] == ["urgent"];
    assert Join(pieces, ',') == "work,urgent";
    SplitJoin(pieces, ',');
  }

  /** Any `completed` value other than `"true"`, such as `"yes"`, selects the
      incomplete todos. */
  lemma CompletedCoercion(t: Todo, owner: Id, q: ListRequest)
    requires q.completed.Some? && q.completed.value != "true"
    ensures Matches(t, BuildQuery(owner, q)) ==> !t.completed
  {
  }

  /** The pages, in order, of `s`. */
  function Pages<T>(s: seq<T>, limit: Positive, n: nat): seq<T> {
    if n == 0 then [] else Pages(s, limit, n - 1) + PageOf(s, n, limit)
  }

  /** The first `n` pages are the first `n * limit` elements. */
  lemma {:induction false} PagesPrefix<T>(s: seq<T>, limit: Positive, n: nat)
    ensures Pages(s, limit, n) == s[..Min(n * limit, |s|)]
  {
    if n > 0 {
      PagesPrefix(s, limit, n - 1);
      var skip := Skip(n, limit);
      assert skip == (n - 1) * limit;
      var hi := Min(n * limit, |s|);
      if skip < |s| {
        assert PageOf(s, n, limit) == s[skip..hi];
        PrefixConcat(s, skip, hi);
      } else {
        assert hi == |s|;
      }
    }
  }

  lemma PrefixConcat<T>(s: seq<T>, lo: nat, hi: nat)
    requires lo <= hi <= |s|
    ensures s[..lo] + s[lo..hi] == s[..hi]
  {
  }

  /** Reading pages `1` to `Math.ceil(total / limit)` returns every match
      exactly once and in order. */
  lemma PagesCoverAll<T>(s: seq<T>, limit: Positive)
    ensures Pages(s, limit, PageCount(|s|, limit)) == s
  {
    PagesPrefix(s, limit, PageCount(|s|, limit));
  }

  /** Every page before the last is full, the last holds the remainder, and
      pages past the last are empty. */
  lemma PageSizes<T>(s: seq<T>, page: Positive, limit: Positive)
    ensures var n := PageCount(|s|, limit);
      && (page < n ==> |PageOf(s, page, limit)| == limit)
      && (page == n ==> |PageOf(s, page, limit)| == |s| - (n - 1) * limit > 0)
      && (page > n ==> PageOf(s, page, limit) == [])
  {
    var n := PageCount(|s|, limit);
    if page < n {
      assert page * limit <= (n - 1) * limit by { MulMono(page, n - 1, limit); }
    } else if page > n {
      assert n * limit <= (page - 1) * limit by { MulMono(n, page - 1, limit); }
    }
  }

  lemma MulMono(a: nat, b: nat, c: nat)
    requires a <= b
    ensures a * c <= b * c
  {
  }

  /** Twenty-five matches at ten per page make three pages, the last holding
      five. */
  lemma TwentyFiveAtTen<T>(s: seq<T>)
    requires |s| == 25
    ensures PageCount(|s|, 10) == 3
    ensures |PageOf(s, 3, 10)| == 5
  {
    PageSizes(s, 3, 10);
  }
}

=== FILE: pagination.dfy ===
/** The Previous and Next buttons under the todo list. Previous is disabled
    on the first page and asks for the page before; Next is disabled on the
    last page and asks for the page after. A click on a disabled button does
    nothing, which the model writes as `None`. */
module ClientPagination {
  import opened Prelude

  /** `disabled={currentPage <= 1}`, then `onPageChange(currentPage - 1)`. */
  function PrevClick(currentPage: int): (r: Option<int>)
    ensures r.Some? <==> currentPage > 1
    ensures r.Some? ==> r.value == currentPage - 1 && r.value >= 1
  {
    if currentPage <= 1 then None else Some(currentPage - 1)
  }

  /** `disabled={currentPage >= totalPages}`, then
      `onPageChange(currentPage + 1)`. */
  function NextClick(currentPage: int, totalPages: int): (r: Option<int>)
    ensures r.Some? <==> currentPage < totalPages
    ensures r.Some? ==> r.value == currentPage + 1 && r.value <= totalPages
  {
    if currentPage >= totalPages then None else Some(currentPage + 1)
  }

  /** Next after Previous returns to the page one started from. */
  lemma NextUndoesPrev(currentPage: int, totalPages: int)
    requires 1 < currentPage <= totalPages
    ensures PrevClick(currentPage).Some?
    ensures NextClick(PrevClick(currentPage).value, totalPages) == Some(currentPage)
  {
  }

  /** Previous after Next returns to the page one started from. */
  lemma PrevUndoesNext(currentPage: int, totalPages: int)
    requires 1 <= currentPage < totalPages
    ensures NextClick(currentPage, totalPages).Some?
    ensures PrevClick(NextClick(currentPage, totalPages).value) == Some(currentPage)
  {
  }

  /** From a page within `1..totalPages`, every click lands within it. */
  lemma ClicksStayInRange(currentPage: int, totalPages: int)
    requires 1 <= currentPage <= totalPages
    ensures PrevClick(currentPage).Some? ==> 1 <= PrevClick(currentPage).value <= totalPages
    ensures NextClick(currentPage, totalPages).Some? ==> 1 <= NextClick(currentPage, totalPages).value <= totalPages
  {
  }
}

=== FILE: prelude.dfy ===
/** Small building blocks shared by the server and the client model:
    an optional value (a JavaScript `undefined`-able field) and the
    `Array.prototype.filter(x => x !== v)` idiom both sides use. */
module Prelude {

  /** A field that may be absent from a request, response or JSON object. */
  datatype Option<+T> = None | Some(value: T) {

    /** The value when present, otherwise `default`. */
    function GetOr(default: T): T {
      match this
      case Some(v) => v
      case None => default
    }
  }

  /** A string value as JavaScript truthiness sees it (`if (x)`, `x || y`):
      absent and `''` are both falsy. */
  predicate Truthy(o: Option<string>) {
    o.Some? && o.value != ""
  }

  /** The outcome of an operation that can fail with an error of type `E`. */
  datatype Result<+T, +E> = Ok(value: T) | Err(error: E)

  /** `xs.filter(x => x !== v)`: every occurrence of `v` dropped, order kept. */
  function Remove<T(==,!new)>(xs: seq<T>, v: T): (r: seq<T>)
    ensures forall x :: x in r <==> x in xs && x != v
    ensures |r| <= |xs|
    ensures v !in xs ==> r == xs
  {
    if |xs| == 0 then []
    else if xs[0] == v then Remove(xs[1..], v)
    else [xs[0]] + Remove(xs[1..], v)
  }

  /** Filtering distributes over concatenation, so the survivors keep their
      relative order. */
  lemma {:induction false} RemoveAppend<T(!new)>(a: seq<T>, b: seq<T>, v: T)
    ensures Remove(a + b, v) == Remove(a, v) + Remove(b, v)
  {
    if |a| == 0 {
      assert a + b == b;
    } else {
      assert (a + b)[1..] == a[1..] + b;
      RemoveAppend(a[1..], b, v);
    }
  }
}

=== FILE: sorting.dfy ===
/** The meaning of a single-field `.sort({ field: ±1 })`: results ordered
    by a key, ascending or descending, ties in no promised order. Keys are
    integer sequences compared lexicographically, which covers numbers and
    dates (a one-element key), booleans (`false` before `true`) and strings
    (their code points, whose order is the order of
    their UTF-8 bytes). */
module Sorting {

  /** Lexicographic `<=` on keys; a proper prefix comes first. */
  predicate LexLe(a: seq<int>, b: seq<int>)
    decreases |a|
  {
    |a| == 0 || (|b| > 0 && (a[0] < b[0] || (a[0] == b[0] && LexLe(a[1..], b[1..]))))
  }

  lemma {:induction false} LexTotal(a: seq<int>, b: seq<int>)
    ensures LexLe(a, b) || LexLe(b, a)
    decreases |a|
  {
    if |a| > 0 && |b| > 0 && a[0] == b[0] {
      LexTotal(a[1..], b[1..]);
    }
  }

  lemma {:induction false} LexTrans(a: seq<int>, b: seq<int>, c: seq<int>)
    requires LexLe(a, b) && LexLe(b, c)
    ensures LexLe(a, c)
    decreases |a|
  {
    if |a| > 0 && a[0] == b[0] && b[0] == c[0] {
      LexTrans(a[1..], b[1..], c[1..]);
    }
  }

  /** `a` may precede `b` under direction `desc` (`-1`) or ascending (`1`). */
  predicate InOrder(a: seq<int>, b: seq<int>, desc: bool) {
    if desc then LexLe(b, a) else LexLe(a, b)
  }

  lemma InOrderTotal(a: seq<int>, b: seq<int>, desc: bool)
    ensures InOrder(a, b, desc) || InOrder(b, a, desc)
  {
    LexTotal(a, b);
  }

  lemma InOrderTrans(a: seq<int>, b: seq<int>, c: seq<int>, desc: bool)
    requires InOrder(a, b, desc) && InOrder(b, c, desc)
    ensures InOrder(a, c, desc)
  {
    if desc { LexTrans(c, b, a); } else { LexTrans(a, b, c); }
  }

  predicate Sorted<T>(s: seq<T>, key: T -> seq<int>, desc: bool) {
    forall i, j :: 0 <= i < j < |s| ==> InOrder(key(s[i]), key(s[j]), desc)
  }

  /** Places `x` before the first element it may precede. */
  function Insert<T>(x: T, s: seq<T>, key: T -> seq<int>, desc: bool): (r: seq<T>)
    requires Sorted(s, key, desc)
    ensures Sorted(r, key, desc)
    ensures multiset(r) == multiset(s) + multiset{x}
  {
    if |s| == 0 then [x]
    else if InOrder(key(x), key(s[0]), desc) then
      InsertFront(x, s, key, desc);
      [x] + s
    else
      var rest := Insert(x, s[1..], key, desc);
      assert s == [s[0]] + s[1..];
      InOrderTotal(key(x), key(s[0]), desc);
      ConsSorted(s[0], rest, s[1..], x, key, desc);
      [s[0]] + rest
  }

  lemma InsertFront<T>(x: T, s: seq<T>, key: T -> seq<int>, desc: bool)
    requires Sorted(s, key, desc) && |s| > 0 && InOrder(key(x), key(s[0]), desc)
    ensures Sorted([x] + s, key, desc)
  {
    var r := [x] + s;
    forall i, j | 0 <= i < j < |r| ensures InOrder(key(r[i]), key(r[j]), desc) {
      if i == 0 && j > 1 {
        InOrderTrans(key(x), key(s[0]), key(s[j - 1]), desc);
      }
    }
  }

  /** Prefixing `h` keeps a sorted list sorted when `h` may precede every
      element, which are those of `s` plus `x`. */
  lemma ConsSorted<T>(h: T, rest: seq<T>, s: seq<T>, x: T, key: T -> seq<int>, desc: bool)
    requires Sorted(rest, key, desc)
    requires multiset(rest) == multiset(s) + multiset{x}
    requires forall k :: 0 <= k < |s| ==> InOrder(key(h), key(s[k]), desc)
    requires InOrder(key(h), key(x), desc)
    ensures Sorted([h] + rest, key, desc)
  {
    var r := [h] + rest;
    forall i, j | 0 <= i < j < |r| ensures InOrder(key(r[i]), key(r[j]), desc) {
      if i == 0 {
        var y := rest[j - 1];
        assert y in multiset(rest);
        if y != x {
          assert y in multiset(s);
          var k :| 0 <= k < |s| && s[k] == y;
        }
      }
    }
  }

  /** `.sort(...)`: a rearrangement of `s` ordered by `key`. */
  function SortBy<T>(s: seq<T>, key: T -> seq<int>, desc: bool): (r: seq<T>)
    ensures Sorted(r, key, desc)
    ensures multiset(r) == multiset(s)
    ensures |r| == |s|
  {
    if |s| == 0 then []
    else
      assert s == [s[0]] + s[1..];
      Insert(s[0], SortBy(s[1..], key, desc), key, desc)
  }
}

=== FILE: store.dfy ===
/** The Todo collection as the handlers see it: a sequence of documents in
    insertion (natural) order, addressed by id and scoped by owner. */
module TodoStore {
  import opened Prelude
  import opened Text
  import opened TodoModel

  type Store = seq<Todo>

  /** No two documents share an id (ObjectIds are unique). */
  predicate UniqueIds(store: Store) {
    forall i, j :: 0 <= i < j < |store| ==> store[i].id != store[j].id
  }

  predicate HasId(store: Store, id: Id) {
    exists k :: 0 <= k < |store| && store[k].id == id
  }

  /** A stored title is non-empty and already trimmed, so it is never
      blank: the handlers trim before storing and the schema rejects `''`. */
  predicate GoodTitle(t: Todo) {
    t.title != "" && IsTrimmed(t.title)
  }

  /** The invariant every handler preserves. */
  predicate StoreInvariant(store: Store) {
    UniqueIds(store) && forall k :: 0 <= k < |store| ==> GoodTitle(store[k])
  }

  /** The position of the first document matching `{ _id: id, user: owner }`. */
  function FindScoped(store: Store, id: Id, owner: Id): (r: Option<nat>)
    ensures r.Some? ==> r.value < |store| && store[r.value].id == id && store[r.value].owner == owner
    ensures r.Some? ==> forall k :: 0 <= k < r.value ==> !(store[k].id == id && store[k].owner == owner)
    ensures r.None? <==> forall k :: 0 <= k < |store| ==> !(store[k].id == id && store[k].owner == owner)
  {
    if |store| == 0 then None
    else if store[0].id == id && store[0].owner == owner then Some(0)
    else
      var r := FindScoped(store[1..], id, owner);
      if r.None? then None else Some(r.value + 1)
  }

  /** With unique ids, a todo is found under its own owner and under nobody
      else: guessing another user's id finds nothing. */
  lemma FindScopedOwner(store: Store, k: nat, owner: Id)
    requires UniqueIds(store) && k < |store|
    ensures FindScoped(store, store[k].id, owner) ==
      (if store[k].owner == owner then Some(k) else None)
  {
  }

  /** The documents owned by someone other than `uid`, in order. */
  function OthersOf(store: Store, uid: Id): (r: Store)
    ensures forall t :: t in r <==> t in store && t.owner != uid
  {
    if |store| == 0 then []
    else (if store[0].owner != uid then [store[0]] else []) + OthersOf(store[1..], uid)
  }

  lemma {:induction false} OthersOfAppend(a: Store, b: Store, uid: Id)
    ensures OthersOf(a + b, uid) == OthersOf(a, uid) + OthersOf(b, uid)
  {
    if |a| == 0 {
      assert a + b == b;
    } else {
      assert (a + b)[1..] == a[1..] + b;
      OthersOfAppend(a[1..], b, uid);
    }
  }

  lemma OthersOfOwn(t: Todo, uid: Id)
    requires t.owner == uid
    ensures OthersOf([t], uid) == []
  {
    assert [t][1..] == [];
  }

  /** A document of `uid` in the middle contributes nothing. */
  lemma OthersOfSkipOwn(pre: Store, t: Todo, post: Store, uid: Id)
    requires t.owner == uid
    ensures OthersOf(pre + [t] + post, uid) == OthersOf(pre + post, uid)
  {
    OthersOfAppend(pre + [t], post, uid);
    OthersOfAppend(pre, [t], uid);
    OthersOfOwn(t, uid);
    assert OthersOf(pre + [t], uid) == OthersOf(pre, uid);
    OthersOfAppend(pre, post, uid);
  }

  /** Replacing a document of `uid` by another of `uid` leaves every other
      user's documents exactly as they were. */
  lemma OthersOfReplace(store: Store, k: nat, t: Todo, uid: Id)
    requires k < |store| && store[k].owner == uid && t.owner == uid
    ensures OthersOf(store[k := t], uid) == OthersOf(store, uid)
  {
    var pre, post := store[..k], store[k + 1..];
    PickApart(store, k);
    assert store[k := t] == pre + [t] + post;
    OthersOfSkipOwn(pre, store[k], post, uid);
    OthersOfSkipOwn(pre, t, post, uid);
  }

  /** So does removing a document of `uid`. */
  lemma OthersOfRemove(store: Store, k: nat, uid: Id)
    requires k < |store| && store[k].owner == uid
    ensures OthersOf(store[..k] + store[k + 1..], uid) == OthersOf(store, uid)
  {
    PickApart(store, k);
    OthersOfSkipOwn(store[..k], store[k], store[k + 1..], uid);
  }

  lemma PickApart(store: Store, k: nat)
    requires k < |store|
    ensures store == store[..k] + [store[k]] + store[k + 1..]
  {
  }

  /** And so does appending one. */
  lemma OthersOfInsert(store: Store, t: Todo, uid: Id)
    requires t.owner == uid
    ensures OthersOf(store + [t], uid) == OthersOf(store, uid)
  {
    OthersOfAppend(store, [t], uid);
    OthersOfOwn(t, uid);
  }

  /** Searching an appended document that carries a fresh id finds it. */
  lemma {:induction false} FindScopedAppended(store: Store, t: Todo)
    requires !HasId(store, t.id)
    ensures FindScoped(store + [t], t.id, t.owner) == Some(|store|)
  {
    if |store| > 0 {
      assert (store + [t])[1..] == store[1..] + [t];
      assert forall k :: 0 <= k < |store[1..]| ==> store[1..][k] == store[k + 1];
      FindScopedAppended(store[1..], t);
    }
  }

  /** The invariant survives replacing a document by a well-titled one with
      the same id. */
  lemma InvariantReplace(store: Store, k: nat, t: Todo)
    requires StoreInvariant(store) && k < |store|
    requires t.id == store[k].id && GoodTitle(t)
    ensures StoreInvariant(store[k := t])
  {
  }

  /** The invariant survives removing a document. */
  lemma InvariantRemove(store: Store, k: nat)
    requires StoreInvariant(store) && k < |store|
    ensures StoreInvariant(store[..k] + store[k + 1..])
  {
    var s := store[..k] + store[k + 1..];
    assert forall j :: 0 <= j < |s| ==> s[j] == (if j < k then store[j] else store[j + 1]);
  }

  /** The invariant survives appending a well-titled document with a fresh id. */
  lemma InvariantAppend(store: Store, t: Todo)
    requires StoreInvariant(store) && !HasId(store, t.id) && GoodTitle(t)
    ensures StoreInvariant(store + [t])
  {
    var s := store + [t];
    forall i, j | 0 <= i < j < |s| ensures s[i].id != s[j].id {
      if j == |store| { assert s[i] == store[i]; }
    }
  }
}

=== FILE: text.dfy ===
/** The JavaScript string operations the application relies on:
    `String.prototype.trim`, `String.prototype.split` with a one-character
    separator, and `Array.prototype.join`. Strings are sequences of Unicode
    code points; JavaScript counts UTF-16 code units instead, which differs
    only for characters beyond U+FFFF. */
module Text {

  /** ECMAScript WhiteSpace and LineTerminator code points, the set `trim`
      strips. */
  predicate IsSpace(c: char) {
    || c in {'\t', '\n', '\U{000B}', '\U{000C}', '\r', ' ', '\U{00A0}', '\U{1680}'}
    || ('\U{2000}' <= c <= '\U{200A}')
    || c in {'\U{2028}', '\U{2029}', '\U{202F}', '\U{205F}', '\U{3000}', '\U{FEFF}'}
  }

  predicate AllSpace(s: string) {
    forall i :: 0 <= i < |s| ==> IsSpace(s[i])
  }

  /** Neither end of `s` is whitespace: what `trim` returns. */
  predicate IsTrimmed(s: string) {
    |s| == 0 || (!IsSpace(s[0]) && !IsSpace(s[|s| - 1]))
  }

  /** Drops leading whitespace; what is left is stated by `TrimStartShape`. */
  function TrimStart(s: string): (r: string)
    ensures |r| <= |s|
  {
    if |s| > 0 && IsSpace(s[0]) then TrimStart(s[1..]) else s
  }

  /** `TrimStart` leaves the suffix of `s` after its leading whitespace. */
  lemma {:induction false} TrimStartShape(s: string)
    ensures var r := TrimStart(s);
      && r == s[|s| - |r|..] && AllSpace(s[..|s| - |r|])
      && (|r| == 0 || !IsSpace(r[0]))
  {
    if |s| > 0 && IsSpace(s[0]) {
      var r := TrimStart(s[1..]);
      TrimStartShape(s[1..]);
      var k := |s| - |r|;
      assert s[1..][|s| - 1 - |r|..] == s[k..];
      forall i | 0 <= i < k ensures IsSpace(s[..k][i]) {
        if i > 0 { assert s[..k][i] == s[1..][..k - 1][i - 1]; }
      }
    }
  }

  /** Drops trailing whitespace; what is left is stated by `TrimEndShape`. */
  function TrimEnd(s: string): (r: string)
    ensures |r| <= |s|
  {
    if |s| > 0 && IsSpace(s[|s| - 1]) then TrimEnd(s[..|s| - 1]) else s
  }

  /** `TrimEnd` leaves the prefix of `s` before its trailing whitespace. */
  lemma {:induction false} TrimEndShape(s: string)
    ensures var r := TrimEnd(s);
      && r == s[..|r|] && AllSpace(s[|r|..])
      && (|r| == 0 || !IsSpace(r[|r| - 1]))
  {
    if |s| > 0 && IsSpace(s[|s| - 1]) {
      var init := s[..|s| - 1];
      var r := TrimEnd(init);
      TrimEndShape(init);
      assert init[..|r|] == s[..|r|];
      forall i | |r| <= i < |s| ensures IsSpace(s[i]) {
        if i < |s| - 1 { assert s[i] == init[|r|..][i - |r|]; }
      }
    }
  }

  /** `s.trim()`: `s` without its leading and trailing whitespace; where
      it sits in `s` is stated by `TrimInfix`. */
  function Trim(s: string): (r: string)
    ensures IsTrimmed(r) && |r| <= |s|
    ensures r == "" <==> AllSpace(s)
  {
    TrimShape(s);
    TrimEnd(TrimStart(s))
  }

  /** Trimming adds no characters. */
  lemma TrimChars(s: string, c: char)
    ensures c in Trim(s) ==> c in s
  {
    var a := TrimStart(s);
    var r := Trim(s);
    assert r == TrimEnd(a);
    TrimStartShape(s);
    TrimEndShape(a);
    if c in r {
      var j :| 0 <= j < |r| && r[j] == c;
      assert r[j] == a[j];
      assert a[j] == s[|s| - |a| + j];
    }
  }

  /** The trimmed string is an infix of `s` framed by whitespace only. */
  lemma TrimInfix(s: string)
    ensures exists i :: (0 <= i <= |s| - |Trim(s)| && Trim(s) == s[i..i + |Trim(s)|]
                         && AllSpace(s[..i]) && AllSpace(s[i + |Trim(s)|..]))
  {
    TrimShape(s);
  }

  /** The facts behind `Trim`'s contract, spelled out over the two passes. */
  lemma TrimShape(s: string)
    ensures var a := TrimStart(s); var r := TrimEnd(a); var i := |s| - |a|;
      && r == s[i..i + |r|] && AllSpace(s[..i]) && AllSpace(s[i + |r|..])
      && (r == "" <==> AllSpace(s)) && IsTrimmed(r)
  {
    TrimFrame(s);
    TrimEmpty(s);
    TrimEnds(s);
  }

  /** The result of the two passes sits between two runs of whitespace. */
  lemma TrimFrame(s: string)
    ensures var a := TrimStart(s); var r := TrimEnd(a); var i := |s| - |a|;
      && r == s[i..i + |r|] && AllSpace(s[..i]) && AllSpace(s[i + |r|..])
  {
    var a := TrimStart(s);
    var r := TrimEnd(a);
    var i := |s| - |a|;
    TrimStartShape(s);
    TrimEndShape(a);
    assert s[i..] == a;
    assert r == s[i..i + |r|];
    assert a[|r|..] == s[i + |r|..];
  }

  /** The two passes leave nothing exactly when `s` is all whitespace. */
  lemma TrimEmpty(s: string)
    ensures TrimEnd(TrimStart(s)) == "" <==> AllSpace(s)
  {
    var a := TrimStart(s);
    var r := TrimEnd(a);
    var i := |s| - |a|;
    TrimStartShape(s);
    TrimEndShape(a);
    assert s[i..] == a;
    if r == "" {
      assert a[|r|..] == a;
      AllSpaceAppend(s[..i], a);
      assert s[..i] + a == s;
    } else {
      assert r[0] == a[0] == s[i];
    }
  }

  /** Neither end of the result is whitespace. */
  lemma TrimEnds(s: string)
    ensures IsTrimmed(TrimEnd(TrimStart(s)))
  {
    var a := TrimStart(s);
    var r := TrimEnd(a);
    TrimStartShape(s);
    TrimEndShape(a);
    if r != "" {
      assert r[0] == a[0];
    }
  }

  lemma AllSpaceAppend(a: string, b: string)
    requires AllSpace(a) && AllSpace(b)
    ensures AllSpace(a + b)
  {
    forall k | 0 <= k < |a + b| ensures IsSpace((a + b)[k]) {
      if k < |a| { assert (a + b)[k] == a[k]; } else { assert (a + b)[k] == b[k - |a|]; }
    }
  }

  /** Trimming a string that is already trimmed changes nothing, so `trim`
      is idempotent. */
  lemma TrimTrimmed(s: string)
    requires IsTrimmed(s)
    ensures Trim(s) == s
  {
    if |s| > 0 {
      assert TrimStart(s) == s;
      assert TrimEnd(s) == s;
    }
  }

  /** `xs.join([sep])`; the empty list joins to the empty string, a single
      piece to itself, and a longer list starts with its first piece. */
  function Join(xs: seq<string>, sep: char): (r: string)
    ensures |xs| == 0 ==> r == ""
    ensures |xs| == 1 ==> r == xs[0]
    ensures |xs| > 0 ==> xs[0] <= r
  {
    if |xs| == 0 then ""
    else if |xs| == 1 then xs[0]
    else xs[0] + [sep] + Join(xs[1..], sep)
  }

  /** `s.split(sep)` for a one-character separator: the maximal
      separator-free pieces, always at least one, and joining them back with
      the separator restores `s`. */
  function Split(s: string, sep: char): (r: seq<string>)
    ensures |r| >= 1
    ensures forall k :: 0 <= k < |r| ==> sep !in r[k]
    ensures Join(r, sep) == s
  {
    if |s| == 0 then [""]
    else
      var rest := Split(s[1..], sep);
      if s[0] == sep then
        assert Join([""] + rest, sep) == [sep] + Join(rest, sep) by {
          if |rest| > 1 { assert ([""] + rest)[1..] == rest; }
        }
        [""] + rest
      else
        var r := [[s[0]] + rest[0]] + rest[1..];
        assert Join(r, sep) == [s[0]] + Join(rest, sep) by {
          if |rest| > 1 { assert r[1..] == rest[1..]; assert Join(rest, sep) == rest[0] + [sep] + Join(rest[1..], sep); }
        }
        r
  }

  /** A string with no separator splits into itself. */
  lemma {:induction false} SplitNoSep(s: string, sep: char)
    requires sep !in s
    ensures Split(s, sep) == [s]
  {
    if |s| > 0 {
      SplitNoSep(s[1..], sep);
    }
  }

  /** Splitting a string that starts with the separator. */
  lemma SplitLeadingSep(s: string, sep: char)
    ensures Split([sep] + s, sep) == [""] + Split(s, sep)
  {
    assert ([sep] + s)[1..] == s;
  }

  /** Splitting a string that starts with another character: it joins the
      first piece. */
  lemma SplitLeadingOther(c: char, s: string, sep: char)
    requires c != sep
    ensures Split([c] + s, sep) == [[c] + Split(s, sep)[0]] + Split(s, sep)[1..]
  {
    assert ([c] + s)[1..] == s;
  }

  /** Splitting at a separator splits each side independently. */
  lemma {:induction false} SplitAppend(a: string, b: string, sep: char)
    ensures Split(a + [sep] + b, sep) == Split(a, sep) + Split(b, sep)
  {
    if |a| == 0 {
      assert a + [sep] + b == [sep] + b;
      SplitLeadingSep(b, sep);
    } else {
      SplitAppend(a[1..], b, sep);
      SplitAppendStep(a[0], a[1..], b, sep);
      ConsShape(a, sep, b);
    }
  }

  /** One step of `SplitAppend`: putting a character in front of the left
      side. */
  lemma SplitAppendStep(c: char, a: string, b: string, sep: char)
    requires Split(a + [sep] + b, sep) == Split(a, sep) + Split(b, sep)
    ensures Split([c] + (a + [sep] + b), sep) == Split([c] + a, sep) + Split(b, sep)
  {
    var ra := Split(a, sep);
    var rb := Split(b, sep);
    if c == sep {
      SplitLeadingSep(a + [sep] + b, sep);
      SplitLeadingSep(a, sep);
      PiecesAssoc([""], ra, rb);
    } else {
      SplitLeadingOther(c, a + [sep] + b, sep);
      SplitLeadingOther(c, a, sep);
      FirstPieceAppend([c], ra, rb);
    }
  }

  lemma ConsShape(a: string, sep: char, b: string)
    requires |a| > 0
    ensures a + [sep] + b == [a[0]] + (a[1..] + [sep] + b)
  {
    assert a == [a[0]] + a[1..];
  }

  lemma PiecesAssoc(x: seq<string>, ra: seq<string>, rb: seq<string>)
    ensures x + (ra + rb) == (x + ra) + rb
  {
  }

  lemma FirstPieceAppend(x: string, ra: seq<string>, rb: seq<string>)
    requires |ra| >= 1
    ensures [x + (ra + rb)[0]] + (ra + rb)[1..] == ([x + ra[0]] + ra[1..]) + rb
  {
    assert (ra + rb)[1..] == ra[1..] + rb;
  }

  /** Joining pieces that contain no separator and splitting again gives the
      pieces back. The list must be non-empty: `[]` and `[""]` both join to
      the empty string. */
  lemma {:induction false} SplitJoin(xs: seq<string>, sep: char)
    requires |xs| >= 1
    requires forall k :: 0 <= k < |xs| ==> sep !in xs[k]
    ensures Split(Join(xs, sep), sep) == xs
  {
    if |xs| == 1 {
      SplitNoSep(xs[0], sep);
    } else {
      SplitJoin(xs[1..], sep);
      SplitNoSep(xs[0], sep);
      SplitAppend(xs[0], Join(xs[1..], sep), sep);
      assert [xs[0]] + xs[1..] == xs;
    }
  }

  /** Every character of a joined string is a separator or comes from one of
      the pieces. */
  lemma {:induction false} JoinChars(xs: seq<string>, sep: char, c: char)
    requires c in Join(xs, sep)
    ensures c == sep || exists k :: 0 <= k < |xs| && c in xs[k]
  {
    if |xs| > 1 {
      var rest := Join(xs[1..], sep);
      if c !in xs[0] && c != sep {
        assert c in rest;
        JoinChars(xs[1..], sep, c);
        var k :| 0 <= k < |xs[1..]| && c in xs[1..][k];
        assert c in xs[k + 1];
      }
    }
  }
}

=== FILE: todo_model.dfy ===
/** The Todo document schema: field types, required fields, the priority
    enumeration and the defaults Mongoose fills in when a document is
    constructed. Users are reduced to the fields the todo logic reads. */
module TodoModel {
  import opened Prelude
  import opened Text

  /** A document id (an ObjectId); the database hands out fresh ones. */
  type Id = nat

  /** A timestamp in milliseconds; the clock is an input of every handler. */
  type Time = nat

  /** A user as projected by `select('username email')`, plus its id. */
  datatype User = User(id: Id, username: string, email: string)

  datatype Priority = Low | Medium | High

  /** The enumeration `['low', 'medium', 'high']`. */
  const PriorityNames: set<string> := {"low", "medium", "high"}

  /** The string stored for a priority. */
  function PriorityName(p: Priority): (r: string)
    ensures r in PriorityNames
  {
    match p
    case Low => "low"
    case Medium => "medium"
    case High => "high"
  }

  /** The enum validator: accepts exactly the three names. */
  function ParsePriority(s: string): (r: Option<Priority>)
    ensures r.Some? <==> s in PriorityNames
    ensures r.Some? ==> PriorityName(r.value) == s
  {
    if s == "low" then Some(Low)
    else if s == "medium" then Some(Medium)
    else if s == "high" then Some(High)
    else None
  }

  /** Names and priorities are in one-to-one correspondence. */
  lemma PriorityNameParses(p: Priority)
    ensures ParsePriority(PriorityName(p)) == Some(p)
    ensures forall q :: PriorityName(q) == PriorityName(p) ==> q == p
  {
  }

  const DefaultPriority: Priority := Medium

  /** An entry of a todo's `notes` array. */
  datatype Note = Note(content: string, createdAt: Time)

  datatype Todo = Todo(
    id: Id,
    title: string,
    description: string,
    priority: Priority,
    completed: bool,
    owner: Id,
    tags: seq<string>,
    assignedUsers: seq<string>,
    notes: seq<Note>,
    createdAt: Time,
    updatedAt: Time)

  /** The fields handed to `new Todo({...})`; an absent field takes its
      schema default. */
  datatype Draft = Draft(
    title: Option<string>,
    description: Option<string>,
    priority: Option<string>,
    completed: Option<bool>,
    tags: Option<seq<string>>,
    assignedUsers: Option<seq<string>>,
    notes: Option<seq<Note>>)

  datatype SchemaError = TitleRequired | PriorityNotInEnum(given: string)

  /** The `required` validator on a string path rejects a missing value and
      the empty string (but not whitespace). */
  predicate RequiredString(s: Option<string>) {
    s.Some? && s.value != ""
  }

  /** What the schema guarantees of every stored document. */
  predicate SchemaValid(t: Todo) {
    t.title != ""
  }

  /** Validates a draft and builds the document, filling in the defaults:
      description `''`, priority `'medium'`, completed `false`, empty
      arrays; both timestamps are the creation time. */
  function Instantiate(d: Draft, id: Id, owner: Id, now: Time): (r: Result<Todo, SchemaError>)
    ensures r.Ok? <==> RequiredString(d.title) && (d.priority.None? || d.priority.value in PriorityNames)
    ensures r.Ok? ==> SchemaValid(r.value)
    ensures r.Ok? ==> r.value.id == id && r.value.owner == owner
    ensures r.Ok? ==> r.value.title == d.title.value
    ensures r.Ok? ==> r.value.createdAt == now && r.value.updatedAt == now
    ensures r.Err? && !RequiredString(d.title) ==> r.error == TitleRequired
  {
    if !RequiredString(d.title) then Err(TitleRequired)
    else
      var p := if d.priority.Some? then ParsePriority(d.priority.value) else Some(DefaultPriority);
      if p.None? then Err(PriorityNotInEnum(d.priority.value))
      else
        Ok(Todo(id, d.title.value, d.description.GetOr(""), p.value, d.completed.GetOr(false),
                owner, d.tags.GetOr([]), d.assignedUsers.GetOr([]), d.notes.GetOr([]), now, now))
  }

  /** A draft that supplies only a title yields the schema defaults. */
  lemma DefaultsApplied(title: string, id: Id, owner: Id, now: Time)
    requires title != ""
    ensures var r := Instantiate(Draft(Some(title), None, None, None, None, None, None), id, owner, now);
      && r.Ok?
      && r.value.description == ""
      && r.value.priority == Medium && PriorityName(r.value.priority) == "medium"
      && !r.value.completed
      && r.value.tags == [] && r.value.assignedUsers == [] && r.value.notes == []
  {
  }

  /** A supplied field is stored as given; the default is only a fallback. */
  lemma SuppliedFieldsKept(d: Draft, id: Id, owner: Id, now: Time)
    requires Instantiate(d, id, owner, now).Ok?
    ensures var t := Instantiate(d, id, owner, now).value;
      && (d.description.Some? ==> t.description == d.description.value)
      && (d.priority.Some? ==> PriorityName(t.priority) == d.priority.value)
      && (d.completed.Some? ==> t.completed == d.completed.value)
      && (d.tags.Some? ==> t.tags == d.tags.value)
      && (d.assignedUsers.Some? ==> t.assignedUsers == d.assignedUsers.value)
      && (d.notes.Some? ==> t.notes == d.notes.value)
  {
  }

  /** A note subdocument; `createdAt` defaults to the current time. */
  function MakeNote(content: string, createdAt: Option<Time>, now: Time): (n: Note)
    ensures n.content == content
    ensures createdAt.None? ==> n.createdAt == now
    ensures createdAt.Some? ==> n.createdAt == createdAt.value
  {
    Note(content, createdAt.GetOr(now))
  }
}
